=== FILE: README.md ===
# Vial keycode registry, key-override editor and capability report — a Dafny model

This project models three parts of the Vial keyboard configurator (a
QMK/Vial GUI), written as immutable data and pure functions.

**The keycode registry and codec** (`keycodes/keycodes.py`).
- `Keycode` descriptors are constructed into a process-wide state. That state holds:
  - the ids constructed so far;
  - the owners of the recorder aliases;
  - the set of masked prefixes (`LT0`, `LCTL`, …);
  - the active Vial protocol.

  The model passes this state explicitly as a `Process` value.
- `recreate_keycodes` concatenates the keycode lists in a fixed order and builds two lookup maps:
  - the id map, keyed by the id with `(kc)` removed;
  - the raw map, keyed by the lenient `deserialize` of the id.

  In both maps the later entry wins.
- Text lookups:
  - `find`, `find_outer_keycode` and `find_inner_keycode`;
  - `is_mask`, `label` and `tooltip`.
- The two directions of the codec:
  - `serialize`: integer to text, with the flat path, the masked path and the `hex()` fallback;
  - `deserialize`, `resolve` and `normalize`.
- The generator `recreate_keyboard_keycodes` builds the keyboard-dependent lists:
  - layers, macros and tap dance;
  - user keycodes, generic or custom;
  - MIDI.

**The key-override editor** (`editor/key_override.py`).
- Check-box rows for modifiers (8 bits) and layers (16 bits), packed to and from integers.
- The six option check boxes.
- A whole entry form, loaded from an entry and saved back to one.
- Which tabs the editor shows (`rebuild_ui`), when the editor is available (`valid`), and what it writes back (`on_change`).

**The "About keyboard" capability report** (`about_keyboard.py`).
- The precedence of unsupported-reason messages (`want_min_vial_fw`).
- The six feature lines that are built from those messages.

Some inputs are abstract parameters:
- The expression parser `AnyKeycode.decode` is a function `parse: string -> Option<int>`.
- The firmware keycode tables are abstract maps and sets.
- The Vial protocol thresholds are abstract naturals.

Apart from these inputs and the gaps listed under "## Left out", the behaviour follows the code branch by branch.

The model follows the code in four places where a prose reading of the program could suggest otherwise:
- **Masked prefixes are never removed.** `Keycode.masked_keycodes` only grows. A regeneration for a keyboard with fewer layers therefore leaves `LT5`, say, registered as a masked prefix. `Generator.StaleLayerTapPrefix` proves it: text like `LT5(KC_A)` still reports as masked once no layer-tap descriptor with that id exists.
- **Constructed ids are never forgotten.** `qmk_id_to_keycode` is likewise never cleared. `deserialize` resolves any id ever constructed.
- **Lenient `deserialize` can still fail.** It turns only a parser failure into 0. A constructed id that the active table lacks still raises, whatever `reraise` says.
- **Hidden tap-dance entries shadow the tap-dance list.** The hidden `TD(0)`…`TD(255)` entries come after the tap-dance list in the concatenation. In the id map they therefore replace the keyboard's tap-dance descriptors, which carry the tooltip "Tap dance keycode". `Generator.HiddenTapDanceShadows` proves that `tooltip("TD(x)")` is the bare id.

## Model

| member | source | states |
|---|---|---|
| Keycode.Describe | src/main/python/keycodes/keycodes.py:18-33 | the descriptor keeps id and masked flag; its alias list starts with its own id, followed by exactly the declared aliases |
| Keycode.ClaimRecorderAliases | src/main/python/keycodes/keycodes.py:37-41 | claiming succeeds iff no alias is already owned and none repeats within the list; on success every alias maps to the new id and earlier owners are kept; a failure names the first alias, in list order, that is already claimed by another keycode or earlier in the list |
| Keycode.Construct | src/main/python/keycodes/keycodes.py:18-45 | construction succeeds iff the recorder aliases are claimable and a masked id ends in `(kc)`; it adds the id to the constructed ids and, for a masked id, its stripped prefix to the masked set; the protocol is unchanged; the only other failure is the missing placeholder |
| Keycode.ConstructAll | src/main/python/keycodes/keycodes.py:18-45 | a run of constructor calls succeeds iff no recorder alias is claimed twice, within the run or against an earlier owner, and every masked id ends in `(kc)`; a failure is a duplicate alias or a missing placeholder; on success it yields the descriptors in order, grows the constructed ids and masked prefixes by exactly the ids and prefixes of the run, adds exactly the run's recorder aliases (each owned by the id that claims it), keeps every earlier alias owner, and leaves the alias owners unchanged when no call claims one |
| Protocol.Resolve | src/main/python/keycodes/keycodes.py:149-158 | resolution reads the v6 table iff the protocol is 6 and the v5 table otherwise; it succeeds iff the id is in that table, with the table's value, and fails with the id otherwise (never a default) |
| Protocol.ActiveTable | src/main/python/keycodes/keycodes.py:151-154 | the v6 table is used exactly when the protocol is 6, the v5 table for every other protocol value |
| Protocol.Deserialize | src/main/python/keycodes/keycodes.py:125-140 | an integer comes back unchanged; a constructed id is resolved; other text gives the parser's value when the parser accepts it, and otherwise the parse error in strict mode and 0 in lenient mode; any failure is either an unresolved constructed id or, only in strict mode, a parser failure |
| Protocol.ReraiseOnlyAffectsParserFailure | src/main/python/keycodes/keycodes.py:125-140 | strict and lenient mode differ only on unconstructed text the parser rejects (lenient gives 0, strict the error); a lenient failure is always an unresolved id |
| Registry.IdMapSound | src/main/python/keycodes/keycodes.py:783-786 | every id-map entry is one of the listed descriptors, stored under its own id with `(kc)` removed |
| Registry.IdMapLastWins | src/main/python/keycodes/keycodes.py:780-786 | every descriptor's key is in the id map, and the descriptor is the one stored there when no later descriptor has the same key |
| Registry.RawMapFailsAtFirst | src/main/python/keycodes/keycodes.py:785-787 | building the raw map succeeds iff every descriptor's id deserializes; a failure is the error of the first id that does not |
| Registry.RawMapSound | src/main/python/keycodes/keycodes.py:784-787 | every raw-map entry is a listed descriptor whose id deserializes to the entry's key |
| Registry.RawMapLastWins | src/main/python/keycodes/keycodes.py:785-787 | every descriptor's raw value is a key of the raw map, holding that descriptor when no later descriptor has the same raw value |
| Registry.Recreate | src/main/python/keycodes/keycodes.py:776-787 | the rebuild succeeds iff every id deserializes; it keeps the list as given, the id map is rebuilt from the list alone (both maps start empty) and the raw map is the one the list determines |
| Registry.Find | src/main/python/keycodes/keycodes.py:48-52 | `find("kc")` looks up `KC_NO`; any other text finds exactly the id-map entry, if there is one |
| Registry.IsMask | src/main/python/keycodes/keycodes.py:80-82 | text is a mask iff it has a `(` whose preceding text contains no `(` and is a registered masked prefix |
| Registry.OuterPart | src/main/python/keycodes/keycodes.py:61-62 | the outer part is the text before the first `(`: a prefix of the text, followed there by `(`, and free of `(` |
| Registry.InnerPart | src/main/python/keycodes/keycodes.py:69-70 | the inner part is what lies between the first `(` and the last character, so outer part, `(`, inner part and last character make up the text; it is empty when `(` is last |
| Registry.FindOuter | src/main/python/keycodes/keycodes.py:56-63 | a mask is looked up by its outer part, other text whole; any hit is an entry of the id map |
| Registry.FindInner | src/main/python/keycodes/keycodes.py:65-71 | a mask is looked up by its inner part, other text whole; any hit is an entry of the id map |
| Registry.SplitComposite | src/main/python/keycodes/keycodes.py:55-70 | text `P(I)` with no `(` in `P` splits at its first `(` into outer part `P` and inner part `I` |
| Registry.MaskedCompositeLookups | src/main/python/keycodes/keycodes.py:55-70 | for a registered masked prefix `P`, `P(I)` is masked, its outer lookup finds `P` and its inner lookup finds `I` |
| Registry.UnmaskedComposite | src/main/python/keycodes/keycodes.py:81-82 | `P(I)` is not masked when `P` is not a registered prefix |
| Registry.PlainLookups | src/main/python/keycodes/keycodes.py:55-70 | for text that is not masked, the outer and inner lookups both behave like `find` |
| Registry.Label | src/main/python/keycodes/keycodes.py:89-93 | the label is the outer descriptor's label, or the text itself when nothing is found |
| Registry.LabelOfRegistered | src/main/python/keycodes/keycodes.py:89-93 | text naming a descriptor's id key (when not a mask), or `P(I)` for a registered masked key `P`, shows the label of the last descriptor registered under that key |
| Registry.LabelOfUnknown | src/main/python/keycodes/keycodes.py:89-93 | text that is no descriptor's id key and not a mask is shown as itself |
| Registry.Tooltip | src/main/python/keycodes/keycodes.py:96-103 | the tooltip is absent iff the outer lookup fails; otherwise it is the found id followed by `: ` and the descriptor's tooltip when that tooltip is non-empty, and the bare id when it is missing or empty |
| Codec.ByteSplit | src/main/python/keycodes/keycodes.py:113-119 | `code & 0xFF00` and `code & 0xFF` are a multiple of 256 below 65536 and a byte, and together make up the low 16 bits of the code |
| Codec.Serialize | src/main/python/keycodes/keycodes.py:106-122 | an unmasked code prints as its raw-map id or `hex(code)`; a masked code prints as the outer id with every `kc` replaced by the inner id when both bytes are in the raw map, `hex(code)` otherwise; the flat entry is never consulted for a masked code |
| Codec.Normalize | src/main/python/keycodes/keycodes.py:143-146 | normalization succeeds iff lenient deserialization does, and then yields the serialization of that code |
| Codec.FlatRoundTrip | src/main/python/keycodes/keycodes.py:113-116 | with the state the registry was built from, an unmasked raw-map key serializes to an id that deserializes back to the same key |
| Codec.SerializeNamesLastDescriptor | src/main/python/keycodes/keycodes.py:785-787 | a descriptor that is the last to claim its unmasked raw value is the name `serialize` prints for that value |
| Codec.CompositeSerialize | src/main/python/keycodes/keycodes.py:117-121 | a masked code whose outer id is `P(kc)`, with no `kc` in `P`, prints as `P(inner id)` |
| Codec.HexFallbackRoundTrip | src/main/python/keycodes/keycodes.py:122 | an unnamed unmasked code prints as `hex(code)`, which deserializes back to the code when the parser reads hex literals and no id looks like one |
| Codec.NormalizeIdempotent | src/main/python/keycodes/keycodes.py:143-146 | normalizing the text that normalization produced gives the same text, for every value whose code is on the unmasked path; when that code has no raw-map name, the parser must read its `hex()` text as a hex literal and no constructed id may equal that text |
| Text.SubstitutePlaceholder | src/main/python/keycodes/keycodes.py:121 | replacing `kc` in `P(kc)`, with no `kc` in `P`, gives `P(inner)` |
| Text.RemovePlaceholder | src/main/python/keycodes/keycodes.py:786 | removing `(kc)` from `P(kc)`, with no `(kc)` in `P`, gives `P` |
| Text.HexRoundTrip | src/main/python/keycodes/keycodes.py:122 | `hex(code)` reads back as `code` for every integer, negative ones included |
| Text.Pad2 | src/main/python/keycodes/keycodes.py:795 | `"{:02}"` prints a number below 10 as `0` followed by its digit and any larger number as its plain decimal digits, so below 100 exactly two digits; the digits read back as the number |
| Generator.HiddenSpecs | src/main/python/keycodes/keycodes.py:765-767 | the hidden list is exactly 256 untooltipped `TD(x)` keycodes, in order |
| Generator.LayerFamily | src/main/python/keycodes/keycodes.py:832-837 | one family holds exactly `layers` keycodes `NAME(x)`, in order, each with the family's description |
| Generator.FnSpecs | src/main/python/keycodes/keycodes.py:841-843 | from four layers on the list is `FN_MO13` labelled `Fn1\n(Fn3)` then `FN_MO23` labelled `Fn2\n(Fn3)`, both plain and without tooltip; below four layers it is empty |
| Generator.LayerTapSpecs | src/main/python/keycodes/keycodes.py:864-866 | the layer-tap list holds `n` masked keycodes `LTx(kc)`, in order, each labelled `LT x\n(kc)` with the layer-tap tooltip naming layer `x`, and none claims a recorder alias |
| Generator.LayerCount | src/main/python/keycodes/keycodes.py:839-866 | the layer list has `6L + (2 if L >= 4) + min(L, 16)` entries |
| Generator.MacroSpecs | src/main/python/keycodes/keycodes.py:868-871 | the generated macro list holds exactly `M0` … `M(n-1)`, in order |
| Generator.TapDanceSpecs | src/main/python/keycodes/keycodes.py:876-879 | the tap-dance list holds exactly `TD(0)` … `TD(n-1)` with the tooltip "Tap dance keycode" |
| Generator.GenericUserSpecs | src/main/python/keycodes/keycodes.py:790-799 | the generic user list holds exactly `USER00` … `USER15`, labelled and described by number |
| Generator.CustomUserSpecs | src/main/python/keycodes/keycodes.py:802-812 | one user keycode per custom definition with the positional id; a missing short name, title or name falls back to that id |
| Generator.UserSpecs | src/main/python/keycodes/keycodes.py:881-885 | the user list has one entry per custom keycode when the keyboard lists any and sixteen otherwise; its ids run `USER00`, `USER01`, … and none can make construction fail |
| Generator.UserLayout | src/main/python/keycodes/keycodes.py:881-885 | the user list is exactly the custom list when one is given and non-empty, and exactly the sixteen generic entries when it is missing or empty; either way the ids run `USER00`, `USER01`, … |
| Generator.UserIdInjective | src/main/python/keycodes/keycodes.py:795 | distinct positions get distinct user ids |
| Generator.MidiList | src/main/python/keycodes/keycodes.py:815-822 | the MIDI list is the basic group for `basic`, basic then advanced for `advanced`, and empty for any other level |
| Generator.MidiRegistered | src/main/python/keycodes/keycodes.py:815-822 | MIDI keycodes exist only at the `basic` and `advanced` levels, come from the basic group or, at `advanced`, the advanced group, and each is the id-map entry for its key unless a later MIDI keycode shares that key |
| Generator.GeneratedSpecsSimple | src/main/python/keycodes/keycodes.py:825-885 | no generated constructor call claims a recorder alias and every generated masked id ends in `(kc)`, so generation cannot fail in construction |
| Generator.ConstructGenerated | src/main/python/keycodes/keycodes.py:839-885 | generation yields the described layer, macro, tap-dance and user lists; the constructed ids and masked prefixes grow by exactly those of the generated calls; alias owners and protocol are kept |
| Generator.RecreateKeyboardKeycodes | src/main/python/keycodes/keycodes.py:825-889 | regeneration sets the protocol, replaces every dynamic list (macros followed by the static macro base, MIDI by level), keeps the static lists, grows the constructed ids and masked prefixes, rebuilds the registry from the fixed concatenation, and fails only on an unresolved id |
| Generator.ConstructImport | src/main/python/keycodes/keycodes.py:18-45 | the module's constructor calls against a fresh process succeed iff no recorder alias is listed twice across the static tables and every masked id ends in `(kc)`, and otherwise fail with one of those two errors; on success the process holds exactly their ids, masked prefixes and recorder aliases, at protocol 0 |
| Generator.Import | src/main/python/keycodes/keycodes.py:892 | module import fails with a duplicate-alias or missing-placeholder error iff the static tables repeat a recorder alias or hold a masked id without `(kc)`, and otherwise can fail only on an unresolved id; on success it leaves exactly the static ids, masked prefixes and recorder aliases registered at protocol 0 with no dynamic keycodes, and the registry is the one `recreate_keycodes` builds from the fixed concatenation |
| Generator.RegenerationIdempotent | src/main/python/keycodes/keycodes.py:825-889 | regenerating twice for the same keyboard gives the same state as regenerating once |
| Generator.LayerTapPrefixRegistered | src/main/python/keycodes/keycodes.py:864-866 | every generated layer-tap `LTx`, for `x` below both the layer count and 16, is a registered masked prefix |
| Generator.NoLayerTapBeyond | src/main/python/keycodes/keycodes.py:864 | no layer keycode has id `LTx(kc)` for `x` at or above the layer count |
| Generator.StaleLayerTapPrefix | src/main/python/keycodes/keycodes.py:43-45 | after regenerating with fewer layers, an earlier `LTx` prefix is still registered and `LTx(I)` still counts as masked, although no layer keycode has that id any more |
| Generator.HiddenTapDanceShadows | src/main/python/keycodes/keycodes.py:780-786 | the tap-dance keycode `TD(x)` carries the tap-dance tooltip, yet the id map holds the hidden `TD(x)`, so `tooltip("TD(x)")` is the bare id |
| Bits.BitByDivision | src/main/python/editor/key_override.py:54 | `data & (1 << x)` is set iff `data` floor-divided by `2^x` is odd, negative data included |
| Bits.Save | src/main/python/editor/key_override.py:56-60 | the save loop sets bit `x` exactly when box `x` is checked, stays below `2^n`, and unpacks back to the boxes |
| KeyOverride.ModsLoad | src/main/python/editor/key_override.py:52-54 | the eight modifier boxes are checked exactly where the data has a set bit |
| KeyOverride.ModsSave | src/main/python/editor/key_override.py:56-60 | saved modifiers are a byte that loads back to the same boxes |
| KeyOverride.ModsRoundTrip | src/main/python/editor/key_override.py:52-60 | save after load gives the data mod 256 |
| KeyOverride.LayersLoad | src/main/python/editor/key_override.py:144-146 | the sixteen layer boxes are checked exactly where the data has a set bit |
| KeyOverride.LayersSave | src/main/python/editor/key_override.py:148-152 | saved layers are below 65536 and load back to the same boxes |
| KeyOverride.LayersRoundTrip | src/main/python/editor/key_override.py:144-152 | save after load gives the data mod 65536 |
| KeyOverride.EnableAllLayers | src/main/python/editor/key_override.py:157-159 | every layer box becomes checked and the row keeps its size |
| KeyOverride.DisableAllLayers | src/main/python/editor/key_override.py:161-163 | every layer box becomes unchecked and the row keeps its size |
| KeyOverride.AllLayersMasks | src/main/python/editor/key_override.py:157-163 | enabling all layers then saving gives 0xFFFF; disabling all gives 0 |
| KeyOverride.OptionsLoad | src/main/python/editor/key_override.py:94-100 | loading options shows the six flags so that saving reproduces the options |
| KeyOverride.OptionsSave | src/main/python/editor/key_override.py:102-110 | saved options take `enabled` from a fresh options value, not from the boxes |
| KeyOverride.OptionsRoundTrip | src/main/python/editor/key_override.py:94-110 | load after save shows the same six boxes |
| KeyOverride.EntryLoad | src/main/python/editor/key_override.py:229-243 | the form shows the enabled flag, both keys unchanged, the layer and the three modifier rows by bit, and the options |
| KeyOverride.EntrySave | src/main/python/editor/key_override.py:245-255 | the saved entry's enabled flag is the enable box, its masks fit their widths, and loading it shows the same form |
| KeyOverride.EntryRoundTrip | src/main/python/editor/key_override.py:229-255 | save after load keeps keys, options and enabled flag, reduces layers mod 2^16 and the three modifier masks mod 2^8, and is the identity on entries whose masks fit |
| KeyOverride.SliceLength | src/main/python/editor/key_override.py:280 | the length of Python's `list[:k]`: `k` when it is in range, the whole list when `k` reaches past the end (so at most 128 forms), and `max(0, len + k)` for a negative `k` |
| KeyOverride.RebuildUi | src/main/python/editor/key_override.py:277-284 | the editor shows the pre-built forms that Python's `[:count]` keeps of the 128 (the first `min(count, 128)` for a non-negative count), tab `x` titled `x+1` and loaded from stored entry `x` |
| KeyOverride.TabTitles | src/main/python/editor/key_override.py:281-282 | tab titles read back as their one-based position and are pairwise distinct |
| KeyOverride.Valid | src/main/python/editor/key_override.py:292-295 | the editor is available for a Vial keyboard whose protocol reaches the dynamic threshold and that has at least one key override |
| KeyOverride.ValidMeansTabs | src/main/python/editor/key_override.py:292-295 | when the editor is valid it shows between 1 and 128 tabs |
| KeyOverride.WriteSlots | src/main/python/editor/key_override.py:297-299 | writing back sets slot `x` to form `x` for every shown form and leaves every other stored slot as it was |
| KeyOverride.OnChange | src/main/python/editor/key_override.py:297-299 | each shown form's saved entry lands in its own slot and slots beyond the shown tabs are untouched |
| KeyOverride.RebuildThenSave | src/main/python/editor/key_override.py:277-299 | writing back untouched forms stores each shown entry reduced to its mask widths |
| AboutKeyboard.WantMinVialFw | src/main/python/about_keyboard.py:10-17 | each of the four distinct unsupported messages comes out exactly when its condition is the first to hold, in the order sideloaded, VIA, firmware too old, disabled |
| AboutKeyboard.CountOrReason | src/main/python/about_keyboard.py:19-32 | a positive count prints as digits that read back as the count; anything else gives the unsupported reason, which is never all digits |
| AboutKeyboard.AboutTapDance | src/main/python/about_keyboard.py:19-22 | the tap-dance line is the count's decimal digits, without leading zeros, when positive, otherwise the reason for the dynamic-protocol threshold |
| AboutKeyboard.AboutCombo | src/main/python/about_keyboard.py:24-27 | the combo line is the count's decimal digits, without leading zeros, when positive, otherwise the reason for the dynamic-protocol threshold |
| AboutKeyboard.AboutKeyOverride | src/main/python/about_keyboard.py:29-32 | the key-override line is the count's decimal digits, without leading zeros, when positive, otherwise the reason for the key-override threshold |
| AboutKeyboard.YesOrReason | src/main/python/about_keyboard.py:34-42 | "yes" iff the protocol reaches the threshold; otherwise the reason, which is never "disabled in firmware" |
| AboutKeyboard.AboutMacroDelays | src/main/python/about_keyboard.py:34-37 | "yes" iff the protocol reaches the advanced-macros threshold, never "unsupported - disabled in firmware" |
| AboutKeyboard.AboutMacroExtKeycodes | src/main/python/about_keyboard.py:39-42 | "yes" iff the protocol reaches the extended-macros threshold, never "unsupported - disabled in firmware" |
| AboutKeyboard.AboutQmkSettings | src/main/python/about_keyboard.py:44-49 | at or above the threshold "disabled in firmware" iff no setting is supported and "yes" iff some is; below it an unsupported reason other than "disabled in firmware" |
| AboutKeyboard.FallbackMonotone | src/main/python/about_keyboard.py:10-17 | asking for an older version can only turn "too old" into "disabled in firmware"; sideloaded and VIA answers do not depend on the version |
| AboutKeyboard.SideloadedReport | src/main/python/about_keyboard.py:10-49 | a sideloaded keyboard reports every missing feature as sideloaded |
| AboutKeyboard.ViaReport | src/main/python/about_keyboard.py:10-49 | a VIA keyboard reports every version-gated feature, and every zero count, as a VIA keyboard |

## Left out

- The contents of the hand-written descriptor tables are not modelled. These are the special, basic, shifted, ISO, boot, modifier, quantum, backlight, media, macro-base and MIDI lists. Their constructor calls are a parameter (`StaticSpecs`), because only their order and the constructor's effects matter.
- The contents of the firmware keycode tables `keycodes_v5` and `keycodes_v6` are not modelled. Each is an abstract id-to-value map plus a set of masked high bytes.
- The expression parser `AnyKeycode.decode` is not modelled. It is an abstract partial function `parse`. So the masked-path round trip (`deserialize(serialize(c)) == c` for a masked code) is not stated; it depends on how the parser reads `P(I)`.
- Generator.CustomUserSpecs: each field of a custom keycode is either missing or a string. In the keyboard definition a field can also be present with `null` or a non-string value; `dict.get` then returns that value instead of the `USERxx` fallback, which the model does not represent.
- Codec.NormalizeIdempotent: stated only for codes on the unmasked path, and under a parser that reads `hex()` text as a hex literal. The parser `AnyKeycode.decode` is an abstract parameter, so what it makes of the `P(I)` text printed for a masked code, or of hex text, cannot be derived.
- The label substitution that happens only under `sys.platform == "emscripten"` is left out, because it depends on the runtime environment.
- `is_basic`, `find_by_recorder_alias` and `find_by_qmk_id` are one-line lookups that nothing in the modelled core depends on. They are not modelled.
- State left behind by a constructor call that raises part-way is not modelled. A failed construction or regeneration returns only the error, not the partially updated globals.
- Counts and layer numbers in the generator are naturals. A negative count makes Python's `range` empty, and the model does not represent that case.
- Qt widgets, signals, `blockSignals`, tab-widget plumbing and the device calls `key_override_get` and `key_override_set` are left out. The device reads and writes appear as a function `get` and a map of stored slots.
- `KeyWidget` is not part of this model. The forms assume that `set_keycode` followed by `keycode` returns the same integer.
- KeyOverride.OptionsSave: the `enabled` flag of a freshly made `KeyOverrideOptions()` is a parameter, `defaultEnabled`, because the options class is not part of this model. `EntrySave` overwrites it with the enable box in any case.
- `KeyOverride.rebuild(device)` and the `BasicEditor` base class are left out; they are the Qt wiring around `valid` and `rebuild_ui`.
- The values of the `VIAL_PROTOCOL_*` constants are not modelled. They are abstract parameters (`Thresholds`, `dynamicProtocol`).
- The text that the about dialog's constructor builds (USB descriptors, layout) is left out, because it is presentation only.

=== FILE: about_keyboard.dfy ===
/**
 * The capability lines of the "About keyboard" dialog: each feature is
 * reported as a count, "yes", "disabled in firmware", or the reason the
 * feature is unavailable. Every line is a pure function of a few fields of
 * the connected keyboard and of the firmware protocol version that
 * introduced the feature. The protocol constants are not part of this
 * model; they are the abstract naturals of `Thresholds`.
 */
module AboutKeyboard {
  import opened Text

  const Sideloaded := "unsupported - sideloaded keyboard"
  const ViaKeyboard := "unsupported - VIA keyboard"
  const FirmwareTooOld := "unsupported - Vial firmware too old"
  const DisabledInFirmware := "unsupported - disabled in firmware"
  const Yes := "yes"
  const SettingsDisabled := "disabled in firmware"

  /** The fields of the connected keyboard that the capability lines read. */
  datatype Keyboard = Keyboard(
    sideload: bool,
    vialProtocol: int,
    tapDanceCount: int,
    comboCount: int,
    keyOverrideCount: int,
    supportedSettings: set<int>)

  /** The first Vial protocol version that supports each feature. */
  datatype Thresholds = Thresholds(
    dynamic: nat,
    keyOverride: nat,
    advancedMacros: nat,
    extMacros: nat,
    qmkSettings: nat)

  /** The text starts with "unsupported - ". */
  predicate IsUnsupported(s: string) {
    |s| >= 14 && s[..14] == "unsupported - "
  }

  /**
   * `want_min_vial_fw(ver)`: why a feature introduced by protocol `ver` is
   * unavailable. The reasons are tried in a fixed order (sideloaded, VIA,
   * firmware too old, disabled in firmware), so exactly one of the four
   * distinct messages comes out, and each message pins down which
   * condition held first.
   */
  function WantMinVialFw(kb: Keyboard, ver: nat): (r: string)
    ensures IsUnsupported(r)
    ensures r == Sideloaded <==> kb.sideload
    ensures r == ViaKeyboard <==> !kb.sideload && kb.vialProtocol < 0
    ensures r == FirmwareTooOld <==> !kb.sideload && 0 <= kb.vialProtocol < ver
    ensures r == DisabledInFirmware <==> !kb.sideload && kb.vialProtocol >= ver
  {
    if kb.sideload then Sideloaded
    else if kb.vialProtocol < 0 then ViaKeyboard
    else if kb.vialProtocol < ver then FirmwareTooOld
    else DisabledInFirmware
  }

  /**
   * A feature sized by a count (`about_tap_dance`, `about_combo`,
   * `about_key_override`): a positive count prints as its decimal digits,
   * anything else falls back to the reason the feature is missing. The two
   * kinds of answer cannot be confused: only a count is all digits, and it
   * reads back as the count.
   */
  function CountOrReason(kb: Keyboard, count: int, ver: nat): (r: string)
    ensures count > 0 <==> AllDigits(r)
    ensures count > 0 ==> ParseDecimal(r) == count && r[0] != '0'
    ensures count <= 0 ==> r == WantMinVialFw(kb, ver)
  {
    if count > 0 then Decimal(count)
    else
      var r := WantMinVialFw(kb, ver);
      assert !IsDigit(r[0]);
      r
  }

  /** `about_tap_dance`. */
  function AboutTapDance(kb: Keyboard, th: Thresholds): (r: string)
    ensures kb.tapDanceCount > 0 ==> AllDigits(r) && ParseDecimal(r) == kb.tapDanceCount && r[0] != '0'
    ensures kb.tapDanceCount <= 0 ==> r == WantMinVialFw(kb, th.dynamic)
  {
    CountOrReason(kb, kb.tapDanceCount, th.dynamic)
  }

  /** `about_combo`. */
  function AboutCombo(kb: Keyboard, th: Thresholds): (r: string)
    ensures kb.comboCount > 0 ==> AllDigits(r) && ParseDecimal(r) == kb.comboCount && r[0] != '0'
    ensures kb.comboCount <= 0 ==> r == WantMinVialFw(kb, th.dynamic)
  {
    CountOrReason(kb, kb.comboCount, th.dynamic)
  }

  /** `about_key_override`. */
  function AboutKeyOverride(kb: Keyboard, th: Thresholds): (r: string)
    ensures kb.keyOverrideCount > 0 ==> AllDigits(r) && ParseDecimal(r) == kb.keyOverrideCount && r[0] != '0'
    ensures kb.keyOverrideCount <= 0 ==> r == WantMinVialFw(kb, th.keyOverride)
  {
    CountOrReason(kb, kb.keyOverrideCount, th.keyOverride)
  }

  /**
   * A feature gated only by the protocol version (`about_macro_delays`,
   * `about_macro_ext_keycodes`): "yes" exactly when the keyboard speaks
   * protocol `ver` or later. The fallback only runs below `ver`, so it can
   * never claim the feature is disabled in firmware.
   */
  function YesOrReason(kb: Keyboard, ver: nat): (r: string)
    ensures r == Yes <==> kb.vialProtocol >= ver
    ensures r != DisabledInFirmware
    ensures r != Yes ==> r == WantMinVialFw(kb, ver)
  {
    if kb.vialProtocol >= ver then Yes else WantMinVialFw(kb, ver)
  }

  /** `about_macro_delays`. */
  function AboutMacroDelays(kb: Keyboard, th: Thresholds): (r: string)
    ensures r == Yes <==> kb.vialProtocol >= th.advancedMacros
    ensures r != DisabledInFirmware
  {
    YesOrReason(kb, th.advancedMacros)
  }

  /** `about_macro_ext_keycodes`. */
  function AboutMacroExtKeycodes(kb: Keyboard, th: Thresholds): (r: string)
    ensures r == Yes <==> kb.vialProtocol >= th.extMacros
    ensures r != DisabledInFirmware
  {
    YesOrReason(kb, th.extMacros)
  }

  /**
   * `about_qmk_settings`: at or above the threshold the answer says whether
   * the firmware exposes any setting; below it the answer is one of the
   * unsupported reasons, and never "disabled in firmware" in either spelling.
   */
  function AboutQmkSettings(kb: Keyboard, th: Thresholds): (r: string)
    ensures r == SettingsDisabled <==> kb.vialProtocol >= th.qmkSettings && |kb.supportedSettings| == 0
    ensures r == Yes <==> kb.vialProtocol >= th.qmkSettings && |kb.supportedSettings| > 0
    ensures kb.vialProtocol < th.qmkSettings ==>
      IsUnsupported(r) && r != DisabledInFirmware && r == WantMinVialFw(kb, th.qmkSettings)
  {
    if kb.vialProtocol >= th.qmkSettings then
      if |kb.supportedSettings| == 0 then SettingsDisabled else Yes
    else WantMinVialFw(kb, th.qmkSettings)
  }

  /**
   * Only the "firmware too old" and "disabled in firmware" answers depend
   * on the version asked for, and asking for an older version can only move
   * the answer from the former to the latter.
   */
  lemma FallbackMonotone(kb: Keyboard, older: nat, newer: nat)
    requires older <= newer
    ensures WantMinVialFw(kb, newer) == DisabledInFirmware ==> WantMinVialFw(kb, older) == DisabledInFirmware
    ensures WantMinVialFw(kb, older) == FirmwareTooOld ==> WantMinVialFw(kb, newer) == FirmwareTooOld
    ensures WantMinVialFw(kb, older) in {Sideloaded, ViaKeyboard} ==> WantMinVialFw(kb, newer) == WantMinVialFw(kb, older)
  {
  }

  /**
   * A sideloaded keyboard reports every feature it lacks as sideloaded,
   * whatever its protocol version says.
   */
  lemma SideloadedReport(kb: Keyboard, th: Thresholds)
    requires kb.sideload
    ensures kb.tapDanceCount <= 0 ==> AboutTapDance(kb, th) == Sideloaded
    ensures kb.comboCount <= 0 ==> AboutCombo(kb, th) == Sideloaded
    ensures kb.keyOverrideCount <= 0 ==> AboutKeyOverride(kb, th) == Sideloaded
    ensures kb.vialProtocol < th.advancedMacros ==> AboutMacroDelays(kb, th) == Sideloaded
    ensures kb.vialProtocol < th.extMacros ==> AboutMacroExtKeycodes(kb, th) == Sideloaded
    ensures kb.vialProtocol < th.qmkSettings ==> AboutQmkSettings(kb, th) == Sideloaded
  {
  }

  /**
   * A plain VIA keyboard (negative Vial protocol) supports none of the
   * version-gated features and reports each of them as a VIA keyboard.
   */
  lemma ViaReport(kb: Keyboard, th: Thresholds)
    requires !kb.sideload && kb.vialProtocol < 0
    ensures AboutMacroDelays(kb, th) == ViaKeyboard
    ensures AboutMacroExtKeycodes(kb, th) == ViaKeyboard
    ensures AboutQmkSettings(kb, th) == ViaKeyboard
    ensures kb.tapDanceCount <= 0 ==> AboutTapDance(kb, th) == ViaKeyboard
    ensures kb.comboCount <= 0 ==> AboutCombo(kb, th) == ViaKeyboard
    ensures kb.keyOverrideCount <= 0 ==> AboutKeyOverride(kb, th) == ViaKeyboard
  {
  }
}

=== FILE: bits.dfy ===
/**
 * Packing a row of checkboxes into an integer bitmask and back, as the
 * key-override editor does for modifier (8 bits) and layer (16 bits) masks.
 * Python integers are unbounded two's-complement values; a right shift is
 * floor division by two, which is what Dafny's `/` does for a positive
 * divisor, so `Bit` below agrees with Python's `data & (1 << x)` for every
 * integer, negative ones included.
 */
module Bits {

  function Pow2(n: nat): (r: nat)
    ensures r >= 1
  {
    if n == 0 then 1 else 2 * Pow2(n - 1)
  }

  /** The widths of the key-override masks: one byte and two bytes. */
  lemma Pow2Widths()
    ensures Pow2(8) == 256 && Pow2(16) == 65536
  {
    assert Pow2(4) == 16;
    assert Pow2(8) == 16 * Pow2(4);
    assert Pow2(12) == 16 * Pow2(8);
    assert Pow2(16) == 16 * Pow2(12);
  }

  /** Python's `bool(d & (1 << x))`. */
  function Bit(d: int, x: nat): bool
    decreases x
  {
    if x == 0 then d % 2 == 1 else Bit(d / 2, x - 1)
  }

  // ---------------------------------------------------------------------
  // Euclidean division facts

  /** A positive multiple of `m` is at least `m`. */
  lemma MulAtLeast(m: int, k: int)
    requires m > 0 && k >= 1
    ensures m * k >= m
  {
    assert m * k == m * (k - 1) + m;
    assert m * (k - 1) >= 0;
  }

  /** The quotient and remainder of Euclidean division are unique. */
  lemma DivModUnique(d: int, m: int, q: int, t: int)
    requires m > 0 && 0 <= t < m && d == m * q + t
    ensures d / m == q && d % m == t
  {
    var q', t' := d / m, d % m;
    assert m * q' + t' == m * q + t;
    assert m * (q - q') == t' - t;
    if q > q' {
      MulAtLeast(m, q - q');
    } else if q < q' {
      MulAtLeast(m, q' - q);
    }
  }

  /** Halving and then dividing by `p` is dividing by `2 * p`; the remainders agree. */
  lemma HalveThenDivide(d: int, p: nat)
    requires p >= 1
    ensures (d / 2) / p == d / (2 * p)
    ensures d % 2 + 2 * ((d / 2) % p) == d % (2 * p)
  {
    var q, r := d / 2, d % 2;
    var a, s := q / p, q % p;
    assert d == (2 * p) * a + (2 * s + r) by {
      assert d == 2 * q + r;
      assert q == p * a + s;
    }
    DivModUnique(d, 2 * p, a, 2 * s + r);
  }

  /** `Bit` is Python's `(d >> x) & 1`, written with one division. */
  lemma {:induction false} BitByDivision(d: int, x: nat)
    ensures Bit(d, x) == ((d / Pow2(x)) % 2 == 1)
    decreases x
  {
    if x > 0 {
      BitByDivision(d / 2, x - 1);
      HalveThenDivide(d, Pow2(x - 1));
    }
  }

  // ---------------------------------------------------------------------
  // Unpacking and packing

  /** `load(data)`: checkbox `x` is checked exactly when bit `x` of `d` is set. */
  function Unpack(d: int, width: nat): (bits: seq<bool>)
    ensures |bits| == width
    ensures forall x :: 0 <= x < width ==> bits[x] == Bit(d, x)
  {
    seq(width, x requires 0 <= x < width => Bit(d, x))
  }

  /** The integer whose bit `x` is `bits[x]`: the sum of `2^x` over checked boxes. */
  function Pack(bits: seq<bool>): nat {
    if bits == [] then 0 else (if bits[0] then 1 else 0) + 2 * Pack(bits[1..])
  }

  lemma {:induction false} PackBounded(bits: seq<bool>)
    ensures Pack(bits) < Pow2(|bits|)
  {
    if bits != [] {
      PackBounded(bits[1..]);
    }
  }

  /** Appending a box adds its weight `2^|bits|` when it is checked. */
  lemma {:induction false} PackSnoc(bits: seq<bool>, b: bool)
    ensures Pack(bits + [b]) == Pack(bits) + (if b then Pow2(|bits|) else 0)
  {
    if bits == [] {
      assert [b][1..] == [];
    } else {
      assert (bits + [b])[1..] == bits[1..] + [b];
      PackSnoc(bits[1..], b);
    }
  }

  /** Reading the packed mask back yields the same boxes. */
  lemma {:induction false} UnpackPack(bits: seq<bool>)
    ensures Unpack(Pack(bits), |bits|) == bits
  {
    if bits != [] {
      UnpackPack(bits[1..]);
      var n := Pack(bits);
      assert n / 2 == Pack(bits[1..]);
      forall x | 0 <= x < |bits|
        ensures Bit(n, x) == bits[x]
      {
        if x > 0 {
          assert Unpack(Pack(bits[1..]), |bits| - 1)[x - 1] == bits[1..][x - 1];
        }
      }
    }
  }

  /** Packing the boxes loaded from `d` keeps the low `width` bits of `d`. */
  lemma {:induction false} PackUnpack(d: int, width: nat)
    ensures Pack(Unpack(d, width)) == d % Pow2(width)
    decreases width
  {
    if width > 0 {
      var bits := Unpack(d, width);
      assert bits[1..] == Unpack(d / 2, width - 1);
      PackUnpack(d / 2, width - 1);
      HalveThenDivide(d, Pow2(width - 1));
    }
  }

  /** Every box checked packs to the all-ones mask `2^n - 1`. */
  lemma {:induction false} PackAllChecked(n: nat)
    ensures Pack(seq(n, _ => true)) == Pow2(n) - 1
  {
    if n > 0 {
      assert seq(n, _ => true)[1..] == seq(n - 1, _ => true);
      PackAllChecked(n - 1);
    }
  }

  /** No box checked packs to zero. */
  lemma {:induction false} PackNoneChecked(n: nat)
    ensures Pack(seq(n, _ => false)) == 0
  {
    if n > 0 {
      assert seq(n, _ => false)[1..] == seq(n - 1, _ => false);
      PackNoneChecked(n - 1);
    }
  }

  /**
   * `save()`: `out |= int(chk.isChecked()) << x` for each box in order.
   * Bit `x` of `out` is still clear when box `x` is visited, so the OR is
   * an addition of `2^x`.
   */
  method Save(chks: seq<bool>) returns (out: int)
    ensures out == Pack(chks)
    ensures 0 <= out < Pow2(|chks|)
    ensures Unpack(out, |chks|) == chks
  {
    out := 0;
    var x := 0;
    while x < |chks|
      invariant 0 <= x <= |chks|
      invariant out == Pack(chks[..x])
    {
      assert chks[..x + 1] == chks[..x] + [chks[x]];
      PackSnoc(chks[..x], chks[x]);
      if chks[x] {
        out := out + Pow2(x);
      }
      x := x + 1;
    }
    assert chks[..x] == chks;
    PackBounded(chks);
    UnpackPack(chks);
  }
}

=== FILE: codec.dfy ===
/**
 * The integer-to-text direction of the keycode codec (`serialize`) and
 * `normalize`, which sends text through `deserialize` and back. A raw
 * keycode is 16 bits: its high byte selects a masked function (mod-tap,
 * layer-tap, …) whose low byte is an inner basic keycode.
 */
module Codec {
  import opened Wrappers
  import opened Text
  import opened Bits
  import opened Keycode
  import opened Protocol
  import opened Registry

  /** `code & 0xFF00` for a Python integer (two's complement, so negative codes too). */
  function HighByte(code: int): int {
    (code / 256 % 256) * 256
  }

  /** `code & 0x00FF`. */
  function LowByte(code: int): int {
    code % 256
  }

  /** The two bytes are disjoint and together make up the low 16 bits of the code. */
  lemma ByteSplit(code: int)
    ensures 0 <= LowByte(code) < 256
    ensures 0 <= HighByte(code) < 65536 && HighByte(code) % 256 == 0
    ensures HighByte(code) + LowByte(code) == code % 65536
  {
    var q, r := code / 256, code % 256;
    var a, b := q / 256, q % 256;
    assert code == 65536 * a + (256 * b + r) by {
      assert code == 256 * q + r;
      assert q == 256 * a + b;
    }
    DivModUnique(code, 65536, a, 256 * b + r);
  }

  /**
   * `Keycode.serialize`. A code whose high byte is not a masked function is
   * named by its own raw-map entry; a masked code is named by substituting
   * the inner keycode's id for the `kc` of the outer one. A code without a
   * name prints as a hexadecimal literal.
   */
  function Serialize(p: Process, tables: Tables, byRaw: map<int, Descriptor>, code: int): (r: string)
    ensures HighByte(code) !in ActiveTable(tables, p.protocol).masked ==>
      r == (if code in byRaw then byRaw[code].qmkId else Hex(code))
    ensures HighByte(code) in ActiveTable(tables, p.protocol).masked ==>
      r == (if HighByte(code) in byRaw && LowByte(code) in byRaw
            then ReplaceAll(byRaw[HighByte(code)].qmkId, "kc", byRaw[LowByte(code)].qmkId)
            else Hex(code))
  {
    var masked := ActiveTable(tables, p.protocol).masked;
    if HighByte(code) !in masked then
      if code in byRaw then byRaw[code].qmkId else Hex(code)
    else if HighByte(code) in byRaw && LowByte(code) in byRaw then
      ReplaceAll(byRaw[HighByte(code)].qmkId, "kc", byRaw[LowByte(code)].qmkId)
    else
      Hex(code)
  }

  /**
   * `Keycode.normalize`: deserialize leniently, then serialize. A lenient
   * deserialize still fails on a constructed id the active table lacks.
   */
  function Normalize(p: Process, tables: Tables, parse: string -> Option<int>, byRaw: map<int, Descriptor>, v: KeyValue)
    : (r: Result<string, Error>)
    ensures r.Success? <==> Deserialize(p, tables, v, false, parse).Success?
    ensures r.Success? ==> r.value == Serialize(p, tables, byRaw, Deserialize(p, tables, v, false, parse).value)
  {
    var code :- Deserialize(p, tables, v, false, parse);
    Success(Serialize(p, tables, byRaw, code))
  }

  /**
   * A code that is not masked and has a raw-map entry serializes to an id
   * that deserializes back to the same code, as long as the process state,
   * tables and parser are those the registry was built with.
   */
  lemma FlatRoundTrip(p: Process, tables: Tables, parse: string -> Option<int>, ks: seq<Descriptor>, code: int)
    requires Recreate(p, tables, parse, ks).Success?
    requires HighByte(code) !in ActiveTable(tables, p.protocol).masked
    requires code in Recreate(p, tables, parse, ks).value.byRaw
    ensures Deserialize(p, tables, Text(Serialize(p, tables, Recreate(p, tables, parse, ks).value.byRaw, code)), false, parse)
      == Success(code)
  {
    RawMapSound(p, tables, parse, ks);
  }

  /**
   * Every descriptor of a rebuilt registry whose raw value is not masked and
   * that is the last to claim that value is the name `serialize` prints for it.
   */
  lemma SerializeNamesLastDescriptor(p: Process, tables: Tables, parse: string -> Option<int>, ks: seq<Descriptor>, i: int)
    requires Recreate(p, tables, parse, ks).Success? && 0 <= i < |ks|
    requires NoLaterRawKey(p, tables, parse, ks, i)
    ensures RawKey(p, tables, parse, ks[i]).Success?
    ensures var code := RawKey(p, tables, parse, ks[i]).value;
      HighByte(code) !in ActiveTable(tables, p.protocol).masked ==>
        Serialize(p, tables, Recreate(p, tables, parse, ks).value.byRaw, code) == ks[i].qmkId
  {
    RawMapLastWins(p, tables, parse, ks, i);
  }

  /**
   * A masked code whose outer entry has id `P(kc)`, with no `kc` inside `P`,
   * serializes to `P(inner)`, which `find_outer` and `find_inner` split back
   * into `P` and the inner id once `P` is a registered masked prefix.
   */
  lemma CompositeSerialize(p: Process, tables: Tables, byRaw: map<int, Descriptor>, code: int, outer: string)
    requires HighByte(code) in ActiveTable(tables, p.protocol).masked
    requires HighByte(code) in byRaw && LowByte(code) in byRaw
    requires byRaw[HighByte(code)].qmkId == outer + Placeholder && !Contains(outer, "kc")
    ensures Serialize(p, tables, byRaw, code) == outer + "(" + byRaw[LowByte(code)].qmkId + ")"
  {
    SubstitutePlaceholder(outer, byRaw[LowByte(code)].qmkId);
  }

  /**
   * A code without a name prints as `hex(code)`, which reads back as the
   * same code through the parser, provided the parser reads hexadecimal
   * literals and no constructed id looks like one.
   */
  lemma HexFallbackRoundTrip(p: Process, tables: Tables, parse: string -> Option<int>, byRaw: map<int, Descriptor>, code: int)
    requires HighByte(code) !in ActiveTable(tables, p.protocol).masked && code !in byRaw
    requires parse(Hex(code)) == ParseHexLiteral(Hex(code)) && Hex(code) !in p.constructed
    ensures Serialize(p, tables, byRaw, code) == Hex(code)
    ensures Deserialize(p, tables, Text(Serialize(p, tables, byRaw, code)), false, parse) == Success(code)
  {
    HexRoundTrip(code);
  }

  /**
   * `normalize` is idempotent on codes that take the unmasked path: the
   * text it produces normalizes to itself.
   */
  lemma NormalizeIdempotent(p: Process, tables: Tables, parse: string -> Option<int>, ks: seq<Descriptor>, v: KeyValue)
    requires Recreate(p, tables, parse, ks).Success?
    requires Deserialize(p, tables, v, false, parse).Success?
    requires var code := Deserialize(p, tables, v, false, parse).value;
      && HighByte(code) !in ActiveTable(tables, p.protocol).masked
      && (code !in Recreate(p, tables, parse, ks).value.byRaw ==>
            parse(Hex(code)) == ParseHexLiteral(Hex(code)) && Hex(code) !in p.constructed)
    ensures var byRaw := Recreate(p, tables, parse, ks).value.byRaw;
      var s := Normalize(p, tables, parse, byRaw, v).value;
      Normalize(p, tables, parse, byRaw, Text(s)) == Success(s)
  {
    var byRaw := Recreate(p, tables, parse, ks).value.byRaw;
    var code := Deserialize(p, tables, v, false, parse).value;
    if code in byRaw {
      FlatRoundTrip(p, tables, parse, ks, code);
    } else {
      HexFallbackRoundTrip(p, tables, parse, byRaw, code);
    }
  }
}

=== FILE: generator.dfy ===
/**
 * Keycode generation: the module-level construction of the static lists
 * followed by the first `recreate_keycodes()` (`Import`), and
 * `recreate_keyboard_keycodes`, which rebuilds the keyboard-dependent lists
 * (layers, macros, tap dance, user, MIDI) and then the registry.
 *
 * The contents of the hand-authored lists are data and enter as a
 * `StaticSpecs` parameter; the generated lists are spelled out.
 */
module Generator {
  import opened Wrappers
  import opened Text
  import opened Keycode
  import opened Protocol
  import opened Registry

  /** One entry of the keyboard definition's `customKeycodes`; any field may be missing. */
  datatype CustomKeycode = CustomKeycode(name: Option<string>, title: Option<string>, shortName: Option<string>)

  /** What `recreate_keyboard_keycodes` reads from the connected keyboard. */
  datatype KeyboardCaps = KeyboardCaps(
    vialProtocol: int,
    layers: nat,
    macroCount: nat,
    tapDanceCount: nat,
    customKeycodes: Option<seq<CustomKeycode>>,
    midi: string)

  /** The module's global state: class attributes, lists and registry. */
  datatype State = State(process: Process, statics: StaticLists, dynamic: DynamicLists, registry: Registry)

  /** The constructor calls of the hand-authored lists, in the order the module makes them. */
  datatype StaticSpecs = StaticSpecs(
    special: seq<KeycodeSpec>,
    numpad: seq<KeycodeSpec>,
    nav: seq<KeycodeSpec>,
    basic: seq<KeycodeSpec>,
    shifted: seq<KeycodeSpec>,
    iso: seq<KeycodeSpec>,
    isoKr: seq<KeycodeSpec>,
    boot: seq<KeycodeSpec>,
    modifiers: seq<KeycodeSpec>,
    quantum: seq<KeycodeSpec>,
    backlight: seq<KeycodeSpec>,
    media: seq<KeycodeSpec>,
    macroBase: seq<KeycodeSpec>,
    midiBasic: seq<KeycodeSpec>,
    midiAdvanced: seq<KeycodeSpec>)

  // ---------------------------------------------------------------------
  // Generated constructor calls

  /** `"{}({})".format(label, x)`. */
  function Applied(name: string, x: nat): string {
    name + "(" + Decimal(x) + ")"
  }

  /** `KEYCODES_HIDDEN`: `TD(0)` … `TD(255)`, labelled with their ids and without tooltips. */
  function HiddenSpecs(): (specs: seq<KeycodeSpec>)
    ensures |specs| == 256
    ensures forall x :: 0 <= x < 256 ==> specs[x] == Plain(Applied("TD", x), Applied("TD", x), None)
  {
    seq(256, x requires 0 <= x < 256 => Plain(Applied("TD", x), Applied("TD", x), None))
  }

  /** `generate_keycodes_for_mask(label, description)`: `label(x)` for every layer. */
  function LayerFamily(name: string, description: string, layers: nat): (specs: seq<KeycodeSpec>)
    ensures |specs| == layers
    ensures forall x :: 0 <= x < layers ==> specs[x] == Plain(Applied(name, x), Applied(name, x), Some(description))
  {
    seq(layers, x requires 0 <= x < layers => Plain(Applied(name, x), Applied(name, x), Some(description)))
  }

  /** The masked layer-tap keycodes `LT0(kc)` … for the first `n` layers. */
  function LayerTapSpecs(n: nat): (specs: seq<KeycodeSpec>)
    ensures |specs| == n
    ensures forall x :: 0 <= x < n ==>
      && specs[x].qmkId == "LT" + Decimal(x) + Placeholder
      && specs[x].masked
      && Simple(specs[x])
      && specs[x].labelText == "LT " + Decimal(x) + "\n(kc)"
      && specs[x].tooltip == Some("单击触发键值，长按切换到层 " + Decimal(x) + " ")
  {
    seq(n, x requires 0 <= x < n =>
      KeycodeSpec("LT" + Decimal(x) + Placeholder, "LT " + Decimal(x) + "\n(kc)",
                  Some("单击触发键值，长按切换到层 " + Decimal(x) + " "), true, None, [], []))
  }

  /** `FN_MO13` and `FN_MO23`, present from four layers on. */
  function FnSpecs(layers: nat): (specs: seq<KeycodeSpec>)
    ensures layers >= 4 ==> specs == [Plain("FN_MO13", "Fn1\n(Fn3)", None), Plain("FN_MO23", "Fn2\n(Fn3)", None)]
    ensures layers < 4 ==> specs == []
  {
    if layers >= 4 then [Plain("FN_MO13", "Fn1\n(Fn3)", None), Plain("FN_MO23", "Fn2\n(Fn3)", None)] else []
  }

  /** The tooltips of the six layer families. */
  const MoDescription := "按下时暂时切换到该层(松开恢复到默认层)"
  const DfDescription := "设置该层为基础（默认）层"
  const TgDescription := "切换到该层或者切回默认层"
  const TtDescription := "按下时暂时切换到该层，连续点击多次后，切换到该层，再连续点击多次后，切回默认层"
  const OslDescription := "暂时切换到该层，按下下一个键后，切回默认层"
  const ToDescription := "切换到该层"

  /** `KEYCODES_LAYERS` as `recreate_keyboard_keycodes` fills it. */
  function LayerSpecs(layers: nat): seq<KeycodeSpec> {
    UnmaskedLayerSpecs(layers) + LayerTapSpecs(if layers < 16 then layers else 16)
  }

  /** The layer keycodes before the layer-taps: `FN_MO13`/`FN_MO23` and the six families. */
  function UnmaskedLayerSpecs(layers: nat): seq<KeycodeSpec> {
    FnSpecs(layers)
    + LayerFamily("MO", MoDescription, layers)
    + LayerFamily("DF", DfDescription, layers)
    + LayerFamily("TG", TgDescription, layers)
    + LayerFamily("TT", TtDescription, layers)
    + LayerFamily("OSL", OslDescription, layers)
    + LayerFamily("TO", ToDescription, layers)
  }

  /** The generated macro keycodes `M0` … `M{n-1}`. */
  function MacroSpecs(n: nat): (specs: seq<KeycodeSpec>)
    ensures |specs| == n
    ensures forall x :: 0 <= x < n ==> specs[x] == Plain("M" + Decimal(x), "M" + Decimal(x), None)
  {
    seq(n, x requires 0 <= x < n => Plain("M" + Decimal(x), "M" + Decimal(x), None))
  }

  /** `KEYCODES_TAP_DANCE`: `TD(0)` … `TD(n-1)`. */
  function TapDanceSpecs(n: nat): (specs: seq<KeycodeSpec>)
    ensures |specs| == n
    ensures forall x :: 0 <= x < n ==> specs[x] == Plain(Applied("TD", x), Applied("TD", x), Some("Tap dance keycode"))
  {
    seq(n, x requires 0 <= x < n => Plain(Applied("TD", x), Applied("TD", x), Some("Tap dance keycode")))
  }

  /** `"USER{:02}".format(x)`. */
  function UserId(x: nat): string {
    "USER" + Pad2(x)
  }

  /** `create_user_keycodes`: sixteen generic user keycodes. */
  function GenericUserSpecs(): (specs: seq<KeycodeSpec>)
    ensures |specs| == 16
    ensures forall x :: 0 <= x < 16 ==>
      specs[x] == Plain(UserId(x), "User " + Decimal(x), Some("User keycode " + Decimal(x)))
  {
    seq(16, x requires 0 <= x < 16 => Plain(UserId(x), "User " + Decimal(x), Some("User keycode " + Decimal(x))))
  }

  /** `dict.get(key, default)`. */
  function GetOr(o: Option<string>, default: string): string {
    if o.Some? then o.value else default
  }

  /**
   * `create_custom_user_keycodes`: one keycode per definition entry, with
   * the positional id as the fallback for a missing field.
   */
  function CustomUserSpecs(custom: seq<CustomKeycode>): (specs: seq<KeycodeSpec>)
    ensures |specs| == |custom|
    ensures forall x :: 0 <= x < |custom| ==>
      && specs[x].qmkId == UserId(x)
      && Simple(specs[x]) && !specs[x].masked
      && specs[x].labelText == GetOr(custom[x].shortName, UserId(x))
      && specs[x].tooltip == Some(GetOr(custom[x].title, UserId(x)))
      && specs[x].alias == [GetOr(custom[x].name, UserId(x))]
  {
    seq(|custom|, x requires 0 <= x < |custom| =>
      KeycodeSpec(UserId(x), GetOr(custom[x].shortName, UserId(x)), Some(GetOr(custom[x].title, UserId(x))),
                  false, None, [], [GetOr(custom[x].name, UserId(x))]))
  }

  /** Custom user keycodes when the definition lists at least one, the generic ones otherwise. */
  function UserSpecs(custom: Option<seq<CustomKeycode>>): (specs: seq<KeycodeSpec>)
    ensures custom.Some? && |custom.value| > 0 ==> |specs| == |custom.value|
    ensures custom.None? || |custom.value| == 0 ==> |specs| == 16
    ensures forall x :: 0 <= x < |specs| ==> specs[x].qmkId == UserId(x) && Simple(specs[x]) && !specs[x].masked
  {
    if custom.Some? && |custom.value| > 0 then CustomUserSpecs(custom.value) else GenericUserSpecs()
  }

  /** `create_midi_keycodes`: the static MIDI lists the setting level enables. */
  function MidiList(s: StaticLists, level: string): (midi: seq<Descriptor>)
    ensures level == "advanced" ==> midi == s.midiBasic + s.midiAdvanced
    ensures level == "basic" ==> midi == s.midiBasic
    ensures level != "basic" && level != "advanced" ==> midi == []
  {
    (if level == "basic" || level == "advanced" then s.midiBasic else [])
    + (if level == "advanced" then s.midiAdvanced else [])
  }

  /**
   * MIDI keycodes come last in `KEYCODES`: each one the level enables is
   * the id-map entry for its key unless a later MIDI keycode shares that
   * key, and only the `basic` and `advanced` levels enable any.
   */
  lemma MidiRegistered(s: StaticLists, d: DynamicLists, level: string, j: int)
    requires d.midi == MidiList(s, level) && 0 <= j < |d.midi|
    requires forall k :: j < k < |d.midi| ==> IdKey(d.midi[k]) != IdKey(d.midi[j])
    ensures level == "basic" || level == "advanced"
    ensures d.midi[j] in s.midiBasic || (level == "advanced" && d.midi[j] in s.midiAdvanced)
    ensures IdKey(d.midi[j]) in IdMap(AllKeycodes(s, d)) && IdMap(AllKeycodes(s, d))[IdKey(d.midi[j])] == d.midi[j]
  {
    var ks := AllKeycodes(s, d);
    var i := |ks| - |d.midi| + j;
    assert ks[i] == d.midi[j];
    forall k | i < k < |ks|
      ensures IdKey(ks[k]) != IdKey(ks[i])
    {
      assert ks[k] == d.midi[k - (|ks| - |d.midi|)];
    }
    IdMapLastWins(ks, i);
    if j >= |s.midiBasic| {
      assert d.midi[j] == s.midiAdvanced[j - |s.midiBasic|];
    }
  }

  /** Every generated constructor call is one that cannot fail. */
  lemma GeneratedSpecsSimple(kb: KeyboardCaps)
    ensures AllSimple(LayerSpecs(kb.layers))
    ensures AllSimple(MacroSpecs(kb.macroCount))
    ensures AllSimple(TapDanceSpecs(kb.tapDanceCount))
    ensures AllSimple(UserSpecs(kb.customKeycodes))
  {
  }

  /** `KEYCODES_LAYERS` holds six families of `layers` keycodes, `FN_MO13`/`FN_MO23` from four layers on, and at most sixteen layer-taps. */
  lemma LayerCount(layers: nat)
    ensures |LayerSpecs(layers)| == 6 * layers + (if layers >= 4 then 2 else 0) + (if layers < 16 then layers else 16)
  {
  }

  /**
   * `KEYCODES_USER` holds the custom keycodes when the keyboard lists at
   * least one, and the sixteen generic ones otherwise (a missing list and
   * an empty one are treated alike); either way the ids are `USER00`,
   * `USER01`, … in order.
   */
  lemma UserLayout(custom: Option<seq<CustomKeycode>>)
    ensures custom.Some? && |custom.value| > 0 ==> UserSpecs(custom) == CustomUserSpecs(custom.value)
    ensures custom.None? || |custom.value| == 0 ==> UserSpecs(custom) == GenericUserSpecs()
    ensures |UserSpecs(custom)| == (if custom.Some? && |custom.value| > 0 then |custom.value| else 16)
    ensures forall x :: 0 <= x < |UserSpecs(custom)| ==> UserSpecs(custom)[x].qmkId == UserId(x)
  {
  }

  /** Distinct positions get distinct user ids, so no user keycode shadows another. */
  lemma UserIdInjective(x: nat, y: nat)
    requires UserId(x) == UserId(y)
    ensures x == y
  {
    assert Pad2(x) == UserId(x)[4..];
    assert Pad2(y) == UserId(y)[4..];
  }

  // ---------------------------------------------------------------------
  // Import and regeneration

  /** The generated constructor calls of one `recreate_keyboard_keycodes`, in the order it makes them. */
  function GeneratedSpecs(kb: KeyboardCaps): seq<KeycodeSpec> {
    LayerSpecs(kb.layers) + MacroSpecs(kb.macroCount) + TapDanceSpecs(kb.tapDanceCount) + UserSpecs(kb.customKeycodes)
  }

  /** The descriptors one `recreate_keyboard_keycodes` constructs, and the process state after. */
  datatype Generated = Generated(
    layers: seq<Descriptor>,
    macros: seq<Descriptor>,
    tapDance: seq<Descriptor>,
    users: seq<Descriptor>,
    process: Process)

  /**
   * The constructor calls of `recreate_keyboard_keycodes`, which cannot
   * fail: they register every generated id and the layer-tap prefixes and
   * leave the recorder aliases and the protocol alone.
   */
  function ConstructGenerated(p: Process, kb: KeyboardCaps): (g: Generated)
    ensures g.layers == DescribeAll(LayerSpecs(kb.layers))
    ensures g.macros == DescribeAll(MacroSpecs(kb.macroCount))
    ensures g.tapDance == DescribeAll(TapDanceSpecs(kb.tapDanceCount))
    ensures g.users == DescribeAll(UserSpecs(kb.customKeycodes))
    ensures g.process.constructed == p.constructed + IdsOf(GeneratedSpecs(kb))
    ensures g.process.maskedPrefixes == p.maskedPrefixes + MaskedPrefixesOf(GeneratedSpecs(kb))
    ensures g.process.recorderOwners == p.recorderOwners && g.process.protocol == p.protocol
  {
    GeneratedSpecsSimple(kb);
    var a, b, c, d := LayerSpecs(kb.layers), MacroSpecs(kb.macroCount), TapDanceSpecs(kb.tapDanceCount),
                      UserSpecs(kb.customKeycodes);
    IdsOfConcat4(a, b, c, d);
    var layers := ConstructSimple(p, a);
    var macros := ConstructSimple(layers.1, b);
    var tapDance := ConstructSimple(macros.1, c);
    var users := ConstructSimple(tapDance.1, d);
    assert users.1.constructed == p.constructed + IdsOf(GeneratedSpecs(kb)) by {
      UnionAssoc4(p.constructed, IdsOf(a), IdsOf(b), IdsOf(c), IdsOf(d));
    }
    assert users.1.maskedPrefixes == p.maskedPrefixes + MaskedPrefixesOf(GeneratedSpecs(kb)) by {
      UnionAssoc4(p.maskedPrefixes, MaskedPrefixesOf(a), MaskedPrefixesOf(b), MaskedPrefixesOf(c), MaskedPrefixesOf(d));
    }
    Generated(layers.0, macros.0, tapDance.0, users.0, users.1)
  }

  /** A run of constructor calls that cannot fail: only the ids and masked prefixes grow. */
  function ConstructSimple(p: Process, specs: seq<KeycodeSpec>): (r: (seq<Descriptor>, Process))
    requires AllSimple(specs)
    ensures r.0 == DescribeAll(specs)
    ensures r.1 == p.(constructed := p.constructed + IdsOf(specs),
                      maskedPrefixes := p.maskedPrefixes + MaskedPrefixesOf(specs))
  {
    ConstructAll(p, specs).value
  }

  /** The lists a regeneration installs, given what it constructed. */
  function DynamicOf(g: Generated, s: StaticLists, kb: KeyboardCaps): DynamicLists {
    DynamicLists(g.layers, g.tapDance, g.macros + s.macroBase, g.users, MidiList(s, kb.midi))
  }

  /**
   * `recreate_keyboard_keycodes(keyboard)`: sets the protocol, constructs
   * the keyboard-dependent keycodes, reuses the static macro-base and MIDI
   * descriptors, and rebuilds the registry. The previous dynamic lists and
   * registry play no part. Only an id missing from the active table can
   * make it fail.
   */
  function RecreateKeyboardKeycodes(st: State, kb: KeyboardCaps, tables: Tables, parse: string -> Option<int>)
    : (r: Result<State, Error>)
    ensures r.Failure? ==> r.error.UnresolvedId?
    ensures r.Success? ==> r.value.statics == st.statics
    ensures r.Success? ==> r.value.process.protocol == kb.vialProtocol
    ensures r.Success? ==> r.value.process.constructed == st.process.constructed + IdsOf(GeneratedSpecs(kb))
    ensures r.Success? ==>
      r.value.process.maskedPrefixes == st.process.maskedPrefixes + MaskedPrefixesOf(GeneratedSpecs(kb))
    ensures r.Success? ==> r.value.process.recorderOwners == st.process.recorderOwners
    ensures r.Success? ==> r.value.dynamic == DynamicLists(
      DescribeAll(LayerSpecs(kb.layers)),
      DescribeAll(TapDanceSpecs(kb.tapDanceCount)),
      DescribeAll(MacroSpecs(kb.macroCount)) + st.statics.macroBase,
      DescribeAll(UserSpecs(kb.customKeycodes)),
      MidiList(st.statics, kb.midi))
    ensures r.Success? ==> r.value.registry.keycodes == AllKeycodes(st.statics, r.value.dynamic)
    ensures r.Success? ==>
      Recreate(r.value.process, tables, parse, r.value.registry.keycodes) == Success(r.value.registry)
  {
    var g := ConstructGenerated(st.process.(protocol := kb.vialProtocol), kb);
    var dynamic := DynamicOf(g, st.statics, kb);
    var ks := AllKeycodes(st.statics, dynamic);
    RawMapFailsAtFirst(g.process, tables, parse, ks);
    var registry :- Recreate(g.process, tables, parse, ks);
    Success(State(g.process, st.statics, dynamic, registry))
  }

  lemma IdsOfConcat(a: seq<KeycodeSpec>, b: seq<KeycodeSpec>)
    ensures IdsOf(a + b) == IdsOf(a) + IdsOf(b)
    ensures MaskedPrefixesOf(a + b) == MaskedPrefixesOf(a) + MaskedPrefixesOf(b)
  {
    var ab := a + b;
    forall x | x in IdsOf(a) ensures x in IdsOf(ab) {
      var i :| 0 <= i < |a| && a[i].qmkId == x;
      assert ab[i] == a[i];
    }
    forall x | x in IdsOf(b) ensures x in IdsOf(ab) {
      var i :| 0 <= i < |b| && b[i].qmkId == x;
      assert ab[|a| + i] == b[i];
    }
    forall x | x in MaskedPrefixesOf(a) ensures x in MaskedPrefixesOf(ab) {
      var i :| 0 <= i < |a| && a[i].masked && StripPlaceholder(a[i].qmkId) == x;
      assert ab[i] == a[i];
    }
    forall x | x in MaskedPrefixesOf(b) ensures x in MaskedPrefixesOf(ab) {
      var i :| 0 <= i < |b| && b[i].masked && StripPlaceholder(b[i].qmkId) == x;
      assert ab[|a| + i] == b[i];
    }
  }

  lemma UnionAssoc4<T>(s: set<T>, a: set<T>, b: set<T>, c: set<T>, d: set<T>)
    ensures s + a + b + c + d == s + (a + b + c + d)
  {
  }

  lemma IdsOfConcat4(a: seq<KeycodeSpec>, b: seq<KeycodeSpec>, c: seq<KeycodeSpec>, d: seq<KeycodeSpec>)
    ensures IdsOf(a + b + c + d) == IdsOf(a) + IdsOf(b) + IdsOf(c) + IdsOf(d)
    ensures MaskedPrefixesOf(a + b + c + d) == MaskedPrefixesOf(a) + MaskedPrefixesOf(b) + MaskedPrefixesOf(c) + MaskedPrefixesOf(d)
  {
    IdsOfConcat(a, b);
    IdsOfConcat(a + b, c);
    IdsOfConcat(a + b + c, d);
  }

  // ---------------------------------------------------------------------
  // The module import

  /** Every hand-authored constructor call, then `KEYCODES_HIDDEN`, in the order the module makes them. */
  function ImportSpecs(specs: StaticSpecs): seq<KeycodeSpec> {
    specs.special + specs.numpad + specs.nav + specs.basic + specs.shifted + specs.iso + specs.isoKr +
    specs.boot + specs.modifiers + specs.quantum + specs.backlight + specs.media + specs.macroBase +
    specs.midiBasic + specs.midiAdvanced + HiddenSpecs()
  }

  /** The static lists: the number pad and navigation keys extend the basic list, the Korean keys the ISO list. */
  function StaticsOf(specs: StaticSpecs): StaticLists {
    StaticLists(
      DescribeAll(specs.special), DescribeAll(specs.basic + specs.numpad + specs.nav), DescribeAll(specs.shifted),
      DescribeAll(specs.iso + specs.isoKr), DescribeAll(specs.boot), DescribeAll(specs.modifiers),
      DescribeAll(specs.quantum), DescribeAll(specs.backlight), DescribeAll(specs.media),
      DescribeAll(specs.macroBase), DescribeAll(specs.midiBasic), DescribeAll(specs.midiAdvanced),
      DescribeAll(HiddenSpecs()))
  }

  /**
   * The module's constructor calls against a fresh process. They succeed
   * exactly when no recorder alias is listed twice across the static
   * tables and every masked id ends with `(kc)`; the process then holds
   * exactly their ids, masked prefixes and recorder aliases.
   */
  function ConstructImport(specs: StaticSpecs): (r: Result<Process, Error>)
    ensures r.Success? <==>
      NoDuplicates(RecorderAliasesOf(ImportSpecs(specs))) && PlaceholdersPresent(ImportSpecs(specs))
    ensures r.Failure? ==> r.error.DuplicateRecorderAlias? || r.error.MaskedIdWithoutPlaceholder?
    ensures AllSimple(ImportSpecs(specs)) ==> r.Success?
    ensures r.Success? ==> r.value.protocol == 0
    ensures r.Success? ==> r.value.constructed == IdsOf(ImportSpecs(specs))
    ensures r.Success? ==> r.value.maskedPrefixes == MaskedPrefixesOf(ImportSpecs(specs))
    ensures r.Success? ==> r.value.recorderOwners == OwnersOf(ImportSpecs(specs))
  {
    var all := ImportSpecs(specs);
    ClaimableFresh(RecorderAliasesOf(all));
    var built :- ConstructAll(InitialProcess, all);
    ExtendsInitial(all, built.1);
    Success(built.1)
  }

  /**
   * Importing the module: every static constructor call runs against a
   * fresh process, then `recreate_keycodes()` builds the registry with
   * protocol 0 and empty keyboard-dependent lists. A repeated recorder
   * alias or a masked id without `(kc)` aborts the import; otherwise only
   * an id missing from the active table can.
   */
  function Import(specs: StaticSpecs, tables: Tables, parse: string -> Option<int>): (r: Result<State, Error>)
    ensures !(NoDuplicates(RecorderAliasesOf(ImportSpecs(specs))) && PlaceholdersPresent(ImportSpecs(specs))) ==>
      r.Failure? && (r.error.DuplicateRecorderAlias? || r.error.MaskedIdWithoutPlaceholder?)
    ensures NoDuplicates(RecorderAliasesOf(ImportSpecs(specs))) && PlaceholdersPresent(ImportSpecs(specs)) ==>
      (r.Failure? ==> r.error.UnresolvedId?)
    ensures AllSimple(ImportSpecs(specs)) && r.Failure? ==> r.error.UnresolvedId?
    ensures r.Success? ==> r.value.process.protocol == 0
    ensures r.Success? ==> r.value.process.constructed == IdsOf(ImportSpecs(specs))
    ensures r.Success? ==> r.value.process.maskedPrefixes == MaskedPrefixesOf(ImportSpecs(specs))
    ensures r.Success? ==> r.value.process.recorderOwners == OwnersOf(ImportSpecs(specs))
    ensures r.Success? ==> r.value.statics == StaticsOf(specs) && r.value.dynamic == NoDynamicLists
    ensures r.Success? ==> r.value.registry.keycodes == AllKeycodes(StaticsOf(specs), NoDynamicLists)
    ensures r.Success? ==>
      Recreate(r.value.process, tables, parse, r.value.registry.keycodes) == Success(r.value.registry)
  {
    var p :- ConstructImport(specs);
    var statics := StaticsOf(specs);
    var ks := AllKeycodes(statics, NoDynamicLists);
    RawMapFailsAtFirst(p, tables, parse, ks);
    var registry :- Recreate(p, tables, parse, ks);
    Success(State(p, statics, NoDynamicLists, registry))
  }

  // ---------------------------------------------------------------------
  // Properties of regeneration

  /**
   * Regenerating for the same keyboard a second time changes nothing: every
   * id and prefix it would register is already registered, and the lists
   * and registry depend only on the keyboard and the static lists.
   */
  lemma RegenerationIdempotent(st: State, kb: KeyboardCaps, tables: Tables, parse: string -> Option<int>)
    requires RecreateKeyboardKeycodes(st, kb, tables, parse).Success?
    ensures var st1 := RecreateKeyboardKeycodes(st, kb, tables, parse).value;
      RecreateKeyboardKeycodes(st1, kb, tables, parse) == Success(st1)
  {
    var st1 := RecreateKeyboardKeycodes(st, kb, tables, parse).value;
    var g := ConstructGenerated(st1.process.(protocol := kb.vialProtocol), kb);
    assert g.process == st1.process;
    assert DynamicOf(g, st1.statics, kb) == st1.dynamic;
  }

  /** The id of layer-tap keycode `x`. */
  function LayerTapId(x: nat): string {
    "LT" + Decimal(x) + Placeholder
  }

  lemma NoParenInPrefix(x: nat)
    ensures '(' !in "LT" + Decimal(x)
  {
    var s := "LT" + Decimal(x);
    forall i | 0 <= i < |s|
      ensures s[i] != '('
    {
      if i >= 2 {
        assert s[i] == Decimal(x)[i - 2];
      }
    }
  }

  /** Generating for `layers` registers the masked prefix `LTx` of every layer-tap keycode it makes. */
  lemma LayerTapPrefixRegistered(kb: KeyboardCaps, x: nat)
    requires x < kb.layers && x < 16
    ensures "LT" + Decimal(x) in MaskedPrefixesOf(GeneratedSpecs(kb))
  {
    var n := if kb.layers < 16 then kb.layers else 16;
    var lts := LayerTapSpecs(n);
    var i := |LayerSpecs(kb.layers)| - n + x;
    assert LayerSpecs(kb.layers)[i] == lts[x];
    assert GeneratedSpecs(kb)[i] == lts[x];
    MissingCharNotContained("LT" + Decimal(x), Placeholder, 0);
    RemovePlaceholder("LT" + Decimal(x));
    assert lts[x].qmkId == "LT" + Decimal(x) + Placeholder;
  }

  /** Every id in `specs` is non-empty and starts with a character other than `L`. */
  predicate InitialNotL(specs: seq<KeycodeSpec>) {
    forall i :: 0 <= i < |specs| ==> |specs[i].qmkId| > 0 && specs[i].qmkId[0] != 'L'
  }

  lemma InitialNotLConcat(a: seq<KeycodeSpec>, b: seq<KeycodeSpec>)
    requires InitialNotL(a) && InitialNotL(b)
    ensures InitialNotL(a + b)
  {
  }

  lemma FamilyInitial(name: string, description: string, layers: nat)
    requires |name| > 0 && name[0] != 'L'
    ensures InitialNotL(LayerFamily(name, description, layers))
  {
  }

  /** Appending a family whose name does not start with `L` keeps every initial other than `L`. */
  lemma AppendFamily(s: seq<KeycodeSpec>, name: string, description: string, layers: nat)
    requires InitialNotL(s) && |name| > 0 && name[0] != 'L'
    ensures InitialNotL(s + LayerFamily(name, description, layers))
  {
    FamilyInitial(name, description, layers);
    InitialNotLConcat(s, LayerFamily(name, description, layers));
  }

  /** None of the layer keycodes before the layer-taps has an id starting with `L`. */
  lemma UnmaskedLayerInitials(layers: nat)
    ensures InitialNotL(UnmaskedLayerSpecs(layers))
  {
    var s := FnSpecs(layers);
    AppendFamily(s, "MO", MoDescription, layers);
    s := s + LayerFamily("MO", MoDescription, layers);
    AppendFamily(s, "DF", DfDescription, layers);
    s := s + LayerFamily("DF", DfDescription, layers);
    AppendFamily(s, "TG", TgDescription, layers);
    s := s + LayerFamily("TG", TgDescription, layers);
    AppendFamily(s, "TT", TtDescription, layers);
    s := s + LayerFamily("TT", TtDescription, layers);
    AppendFamily(s, "OSL", OslDescription, layers);
    s := s + LayerFamily("OSL", OslDescription, layers);
    AppendFamily(s, "TO", ToDescription, layers);
    s := s + LayerFamily("TO", ToDescription, layers);
    assert s == UnmaskedLayerSpecs(layers);
  }

  /** The layer list for `layers` has no layer-tap keycode for layer `x` when `x >= layers`. */
  lemma NoLayerTapBeyond(layers: nat, x: nat)
    requires layers <= x
    ensures forall i :: 0 <= i < |LayerSpecs(layers)| ==> LayerSpecs(layers)[i].qmkId != LayerTapId(x)
  {
    var n := if layers < 16 then layers else 16;
    var front := UnmaskedLayerSpecs(layers);
    UnmaskedLayerInitials(layers);
    forall i | 0 <= i < |LayerSpecs(layers)|
      ensures LayerSpecs(layers)[i].qmkId != LayerTapId(x)
    {
      if i < |front| {
        assert LayerSpecs(layers)[i] == front[i];
        assert LayerTapId(x)[0] == 'L';
      } else {
        var y := i - |front|;
        assert LayerSpecs(layers)[i] == LayerTapSpecs(n)[y];
        if LayerSpecs(layers)[i].qmkId == LayerTapId(x) {
          CancelAround("LT", Decimal(y), Decimal(x), Placeholder);
          DecimalInjective(y, x);
        }
      }
    }
  }

  /**
   * The masked-prefix set only grows: after a keyboard with more than `x`
   * layers is replaced by one with at most `x`, `LTx` is still a registered
   * prefix although no layer-tap keycode for layer `x` exists any more, so
   * text `LTx(…)` still counts as a mask.
   */
  lemma StaleLayerTapPrefix(st: State, kb1: KeyboardCaps, kb2: KeyboardCaps, tables: Tables,
                            parse: string -> Option<int>, x: nat, inner: string)
    requires x < 16 && x < kb1.layers && kb2.layers <= x
    requires RecreateKeyboardKeycodes(st, kb1, tables, parse).Success?
    requires RecreateKeyboardKeycodes(RecreateKeyboardKeycodes(st, kb1, tables, parse).value, kb2, tables, parse).Success?
    ensures var st2 := RecreateKeyboardKeycodes(RecreateKeyboardKeycodes(st, kb1, tables, parse).value, kb2, tables, parse).value;
      && "LT" + Decimal(x) in st2.process.maskedPrefixes
      && IsMask(st2.process.maskedPrefixes, "LT" + Decimal(x) + "(" + inner + ")")
      && forall i :: 0 <= i < |st2.dynamic.layers| ==> st2.dynamic.layers[i].qmkId != LayerTapId(x)
  {
    var st1 := RecreateKeyboardKeycodes(st, kb1, tables, parse).value;
    var st2 := RecreateKeyboardKeycodes(st1, kb2, tables, parse).value;
    var prefix := "LT" + Decimal(x);
    LayerTapPrefixRegistered(kb1, x);
    assert prefix in st1.process.maskedPrefixes;
    assert prefix in st2.process.maskedPrefixes;
    NoLayerTapBeyond(kb2.layers, x);
    var layers := st2.dynamic.layers;
    assert layers == DescribeAll(LayerSpecs(kb2.layers));
    forall i | 0 <= i < |layers|
      ensures layers[i].qmkId != LayerTapId(x)
    {
      assert layers[i].qmkId == LayerSpecs(kb2.layers)[i].qmkId;
    }
    NoParenInPrefix(x);
    MaskedCompositeLookups(st2.registry.byId, st2.process.maskedPrefixes, prefix, inner);
  }

  /** `TD(y)` holds no `(kc)`, so it is its own id-map key. */
  lemma AppliedIsOwnKey(name: string, y: nat)
    requires 'k' !in name
    ensures StripPlaceholder(Applied(name, y)) == Applied(name, y)
  {
    var s := Applied(name, y);
    forall i | 0 <= i < |s|
      ensures s[i] != 'k'
    {
      if |name| + 1 <= i < |s| - 1 {
        assert s[i] == Decimal(y)[i - |name| - 1];
      }
    }
    MissingCharNotContained(s, Placeholder, 1);
    ReplaceAbsent(s, Placeholder, "");
  }

  lemma AppliedInjective(name: string, x: nat, y: nat)
    requires Applied(name, x) == Applied(name, y)
    ensures x == y
  {
    CancelAround(name + "(", Decimal(x), Decimal(y), ")");
    DecimalInjective(x, y);
  }

  /**
   * `KEYCODES_HIDDEN` comes after `KEYCODES_TAP_DANCE` in `KEYCODES`, so the
   * id map holds the hidden `TD(x)`, which has no tooltip, and not the
   * tap-dance keycode that carries "Tap dance keycode": `Keycode.tooltip`
   * shows the bare id.
   */
  lemma HiddenTapDanceShadows(st: State, kb: KeyboardCaps, tables: Tables, parse: string -> Option<int>, x: nat)
    requires RecreateKeyboardKeycodes(st, kb, tables, parse).Success?
    requires st.statics.hidden == DescribeAll(HiddenSpecs())
    requires x < kb.tapDanceCount && x < 256
    requires var r := RecreateKeyboardKeycodes(st, kb, tables, parse).value;
      && "TD" !in r.process.maskedPrefixes
      && forall j :: 0 <= j < |r.dynamic.midi| ==> IdKey(r.dynamic.midi[j]) != Applied("TD", x)
    ensures var r := RecreateKeyboardKeycodes(st, kb, tables, parse).value;
      && r.dynamic.tapDance[x].qmkId == Applied("TD", x)
      && r.dynamic.tapDance[x].tooltip == Some("Tap dance keycode")
      && Find(r.registry.byId, Applied("TD", x)) == Some(r.statics.hidden[x])
      && r.statics.hidden[x].tooltip.None?
      && Tooltip(r.registry.byId, r.process.maskedPrefixes, Applied("TD", x)) == Some(Applied("TD", x))
  {
    var r := RecreateKeyboardKeycodes(st, kb, tables, parse).value;
    var s, d := r.statics, r.dynamic;
    var pre := s.special + s.basic + s.shifted + s.iso + d.layers + s.boot + s.modifiers + s.quantum +
               s.backlight + s.media + d.tapDance + d.macro + d.user;
    assert r.registry.keycodes == pre + s.hidden + d.midi;
    HiddenTooltip(pre, d.midi, r.process.maskedPrefixes, x);
    assert d.tapDance[x] == Describe(TapDanceSpecs(kb.tapDanceCount)[x]);
  }

  /** The lookups `Keycode.tooltip` makes for `TD(x)` reach the hidden entry. */
  lemma HiddenTooltip(pre: seq<Descriptor>, midi: seq<Descriptor>, prefixes: set<string>, x: nat)
    requires x < 256 && "TD" !in prefixes
    requires forall j :: 0 <= j < |midi| ==> IdKey(midi[j]) != Applied("TD", x)
    ensures var byId := IdMap(pre + DescribeAll(HiddenSpecs()) + midi);
      && Find(byId, Applied("TD", x)) == Some(DescribeAll(HiddenSpecs())[x])
      && DescribeAll(HiddenSpecs())[x].tooltip.None?
      && Tooltip(byId, prefixes, Applied("TD", x)) == Some(Applied("TD", x))
  {
    var byId := IdMap(pre + DescribeAll(HiddenSpecs()) + midi);
    var d := DescribeAll(HiddenSpecs())[x];
    HiddenWinsInIdMap(pre, midi, x);
    UnmaskedComposite(prefixes, "TD", Decimal(x));
    PlainLookups(byId, prefixes, Applied("TD", x));
    assert Find(byId, Applied("TD", x)) == Some(d);
    assert FindOuter(byId, prefixes, Applied("TD", x)) == Some(d);
    assert d.tooltip.None? && d.qmkId == Applied("TD", x);
  }

  /** In any list whose tail is `KEYCODES_HIDDEN` followed by entries with other keys, `TD(x)` maps to the hidden entry. */
  lemma HiddenWinsInIdMap(pre: seq<Descriptor>, midi: seq<Descriptor>, x: nat)
    requires x < 256
    requires forall j :: 0 <= j < |midi| ==> IdKey(midi[j]) != Applied("TD", x)
    ensures var ks := pre + DescribeAll(HiddenSpecs()) + midi;
      Applied("TD", x) in IdMap(ks) && IdMap(ks)[Applied("TD", x)] == DescribeAll(HiddenSpecs())[x]
  {
    var hidden := DescribeAll(HiddenSpecs());
    var ks := pre + hidden + midi;
    var i := |pre| + x;
    assert ks[i] == hidden[x];
    AppliedIsOwnKey("TD", x);
    forall j | i < j < |ks|
      ensures IdKey(ks[j]) != IdKey(ks[i])
    {
      if j < |pre| + 256 {
        var y := j - |pre|;
        assert ks[j] == hidden[y];
        AppliedIsOwnKey("TD", y);
        if Applied("TD", y) == Applied("TD", x) {
          AppliedInjective("TD", y, x);
        }
      } else {
        assert ks[j] == midi[j - |pre| - 256];
      }
    }
    IdMapLastWins(ks, i);
  }
}

=== FILE: key_override.dfy ===
/**
 * The key-override editor: the per-entry form (enable box, layer boxes,
 * trigger and replacement keys, three rows of modifier boxes, six option
 * boxes), its `load`/`save` pair, the tab list `rebuild_ui` builds from the
 * keyboard, the `valid` gate and the write-back `on_change` performs.
 *
 * Widgets are plain values: a checkbox row is a `seq<bool>`, a key widget
 * holds the keycode it was given.
 */
module KeyOverride {
  import opened Wrappers
  import opened Text
  import opened Bits

  /** Modifier boxes per row: LCtrl, LShift, LAlt, LGui, RCtrl, RShift, RAlt, RGui. */
  const ModCount: nat := 8

  /** Layer boxes: layers 0 to 15. */
  const LayerCount: nat := 16

  /** Entry forms created up front; a keyboard never gets more tabs than this. */
  const AvailableEntries: nat := 128

  /** `KeyOverrideOptions`: the enable flag and six behaviour flags. */
  datatype KeyOverrideOptions = KeyOverrideOptions(
    enabled: bool,
    activationTriggerDown: bool,
    activationRequiredModDown: bool,
    activationNegativeModUp: bool,
    oneMod: bool,
    noReregisterTrigger: bool,
    noUnregisterOnOtherKeyDown: bool)

  /** `KeyOverrideEntry`: one override as the keyboard stores it. */
  datatype KeyOverrideEntry = KeyOverrideEntry(
    trigger: int,
    replacement: int,
    layers: int,
    triggerMods: int,
    negativeModMask: int,
    suppressedMods: int,
    options: KeyOverrideOptions)

  /** `OptionsUI`: the six option boxes (the enable flag has its own box in the entry form). */
  datatype OptionsUi = OptionsUi(
    triggerDown: bool,
    requiredModDown: bool,
    negativeModUp: bool,
    oneMod: bool,
    noReregisterTrigger: bool,
    noUnregisterOnOtherKeyDown: bool)

  /** `KeyOverrideEntryUI`: the state of every widget of one entry form. */
  datatype EntryUi = EntryUi(
    enableChk: bool,
    layers: seq<bool>,
    triggerKey: int,
    triggerMods: seq<bool>,
    negativeMods: seq<bool>,
    suppressedMods: seq<bool>,
    keyReplacement: int,
    options: OptionsUi)

  // ---------------------------------------------------------------------
  // Checkbox rows

  /** `ModsUI.load(data)`: box `x` shows bit `x` of `data`. */
  function ModsLoad(data: int): (chks: seq<bool>)
    ensures |chks| == ModCount
    ensures forall x :: 0 <= x < ModCount ==> (chks[x] <==> (data / Pow2(x)) % 2 == 1)
  {
    var chks := Unpack(data, ModCount);
    forall x | 0 <= x < ModCount
      ensures chks[x] <==> (data / Pow2(x)) % 2 == 1
    {
      BitByDivision(data, x);
    }
    chks
  }

  /** `ModsUI.save()`: the mask with bit `x` set exactly for the checked boxes. */
  function ModsSave(chks: seq<bool>): (data: int)
    requires |chks| == ModCount
    ensures 0 <= data < 256
    ensures ModsLoad(data) == chks
  {
    Pow2Widths();
    PackBounded(chks);
    UnpackPack(chks);
    Pack(chks)
  }

  /** Saving the boxes loaded from `data` keeps the low eight bits of `data`. */
  lemma ModsRoundTrip(data: int)
    ensures ModsSave(ModsLoad(data)) == data % 256
  {
    Pow2Widths();
    PackUnpack(data, ModCount);
  }

  /** `LayersUI.load(data)`: box `x` shows bit `x` of `data`. */
  function LayersLoad(data: int): (chks: seq<bool>)
    ensures |chks| == LayerCount
    ensures forall x :: 0 <= x < LayerCount ==> (chks[x] <==> (data / Pow2(x)) % 2 == 1)
  {
    var chks := Unpack(data, LayerCount);
    forall x | 0 <= x < LayerCount
      ensures chks[x] <==> (data / Pow2(x)) % 2 == 1
    {
      BitByDivision(data, x);
    }
    chks
  }

  /** `LayersUI.save()`. */
  function LayersSave(chks: seq<bool>): (data: int)
    requires |chks| == LayerCount
    ensures 0 <= data < 65536
    ensures LayersLoad(data) == chks
  {
    Pow2Widths();
    PackBounded(chks);
    UnpackPack(chks);
    Pack(chks)
  }

  /** Saving the boxes loaded from `data` keeps the low sixteen bits of `data`. */
  lemma LayersRoundTrip(data: int)
    ensures LayersSave(LayersLoad(data)) == data % 65536
  {
    Pow2Widths();
    PackUnpack(data, LayerCount);
  }

  /** `on_enable_all_layers`. */
  function EnableAllLayers(chks: seq<bool>): (r: seq<bool>)
    ensures |r| == |chks| && forall x :: 0 <= x < |r| ==> r[x]
  {
    seq(|chks|, _ => true)
  }

  /** `on_disable_all_layers`. */
  function DisableAllLayers(chks: seq<bool>): (r: seq<bool>)
    ensures |r| == |chks| && forall x :: 0 <= x < |r| ==> !r[x]
  {
    seq(|chks|, _ => false)
  }

  /** After "enable all" the layer mask is `0xFFFF`; after "disable all" it is 0. */
  lemma AllLayersMasks(chks: seq<bool>)
    requires |chks| == LayerCount
    ensures LayersSave(EnableAllLayers(chks)) == 0xFFFF
    ensures LayersSave(DisableAllLayers(chks)) == 0
  {
    Pow2Widths();
    PackAllChecked(LayerCount);
    PackNoneChecked(LayerCount);
  }

  // ---------------------------------------------------------------------
  // Options

  /** `OptionsUI.load(opt)`: each box shows its flag; `enabled` is not shown here. */
  function OptionsLoad(opt: KeyOverrideOptions): (ui: OptionsUi)
    ensures OptionsSave(ui, opt.enabled) == opt
  {
    OptionsUi(opt.activationTriggerDown, opt.activationRequiredModDown, opt.activationNegativeModUp,
              opt.oneMod, opt.noReregisterTrigger, opt.noUnregisterOnOtherKeyDown)
  }

  /**
   * `OptionsUI.save()`: a fresh `KeyOverrideOptions()` with the six flags
   * read from the boxes. The fresh object's `enabled` value comes from a
   * constructor that is not part of this model, so it is a parameter.
   */
  function OptionsSave(ui: OptionsUi, defaultEnabled: bool): (opt: KeyOverrideOptions)
    ensures opt.enabled == defaultEnabled
  {
    KeyOverrideOptions(defaultEnabled, ui.triggerDown, ui.requiredModDown, ui.negativeModUp,
                       ui.oneMod, ui.noReregisterTrigger, ui.noUnregisterOnOtherKeyDown)
  }

  /** Loading saved option boxes shows the same boxes. */
  lemma OptionsRoundTrip(ui: OptionsUi, defaultEnabled: bool)
    ensures OptionsLoad(OptionsSave(ui, defaultEnabled)) == ui
  {
  }

  // ---------------------------------------------------------------------
  // One entry

  /** `KeyOverrideEntryUI.load(ko)`: every widget of the form is set from `ko`. */
  function EntryLoad(ko: KeyOverrideEntry): (ui: EntryUi)
    ensures ui.enableChk == ko.options.enabled
    ensures ui.triggerKey == ko.trigger && ui.keyReplacement == ko.replacement
    ensures ui.layers == LayersLoad(ko.layers)
    ensures ui.triggerMods == ModsLoad(ko.triggerMods)
    ensures ui.negativeMods == ModsLoad(ko.negativeModMask)
    ensures ui.suppressedMods == ModsLoad(ko.suppressedMods)
    ensures OptionsSave(ui.options, ko.options.enabled) == ko.options
  {
    EntryUi(ko.options.enabled, LayersLoad(ko.layers), ko.trigger, ModsLoad(ko.triggerMods),
            ModsLoad(ko.negativeModMask), ModsLoad(ko.suppressedMods), ko.replacement, OptionsLoad(ko.options))
  }

  /** A form whose checkbox rows have their fixed lengths. */
  predicate WellShaped(ui: EntryUi) {
    |ui.layers| == LayerCount && |ui.triggerMods| == ModCount &&
    |ui.negativeMods| == ModCount && |ui.suppressedMods| == ModCount
  }

  /**
   * `KeyOverrideEntryUI.save()`: a fresh entry read from the form; the
   * enable box overrides whatever `enabled` the fresh options carried.
   */
  function EntrySave(ui: EntryUi, defaultEnabled: bool): (ko: KeyOverrideEntry)
    requires WellShaped(ui)
    ensures ko.options.enabled == ui.enableChk
    ensures 0 <= ko.layers < 65536
    ensures 0 <= ko.triggerMods < 256 && 0 <= ko.negativeModMask < 256 && 0 <= ko.suppressedMods < 256
    ensures EntryLoad(ko) == ui
  {
    var opts := OptionsSave(ui.options, defaultEnabled).(enabled := ui.enableChk);
    assert OptionsLoad(opts) == ui.options;
    KeyOverrideEntry(ui.triggerKey, ui.keyReplacement, LayersSave(ui.layers), ModsSave(ui.triggerMods),
                     ModsSave(ui.negativeMods), ModsSave(ui.suppressedMods), opts)
  }

  /** Every mask of `ko` has only bits the form has boxes for. */
  predicate MasksFit(ko: KeyOverrideEntry) {
    && 0 <= ko.layers < 65536
    && 0 <= ko.triggerMods < 256 && 0 <= ko.negativeModMask < 256 && 0 <= ko.suppressedMods < 256
  }

  /** What a load followed by a save makes of an entry: each mask keeps only the bits the form has boxes for. */
  function Truncated(ko: KeyOverrideEntry): KeyOverrideEntry {
    ko.(layers := ko.layers % 65536, triggerMods := ko.triggerMods % 256,
        negativeModMask := ko.negativeModMask % 256, suppressedMods := ko.suppressedMods % 256)
  }

  /**
   * Saving a freshly loaded form gives the entry back, up to the bits the
   * form has no box for; an entry whose masks fit comes back unchanged.
   */
  lemma EntryRoundTrip(ko: KeyOverrideEntry, defaultEnabled: bool)
    ensures WellShaped(EntryLoad(ko))
    ensures EntrySave(EntryLoad(ko), defaultEnabled) == Truncated(ko)
    ensures MasksFit(ko) ==> EntrySave(EntryLoad(ko), defaultEnabled) == ko
  {
    LayersRoundTrip(ko.layers);
    ModsRoundTrip(ko.triggerMods);
    ModsRoundTrip(ko.negativeModMask);
    ModsRoundTrip(ko.suppressedMods);
  }

  // ---------------------------------------------------------------------
  // The editor

  /**
   * Python's `len(xs[:k])` for a list of length `len`: a stop beyond the
   * end keeps the whole list, and a negative stop counts from the end,
   * keeping nothing once it reaches past the start.
   */
  function SliceLength(len: nat, k: int): (n: nat)
    ensures n <= len
    ensures 0 <= k <= len ==> n == k
    ensures k >= len ==> n == len
    ensures k < 0 ==> n == (if len + k > 0 then len + k else 0)
  {
    if k >= 0 then (if k < len then k else len)
    else if len + k > 0 then len + k else 0
  }

  /** One tab of the editor: its title and the form shown in it. */
  datatype Tab = Tab(title: string, entry: EntryUi)

  /**
   * `rebuild_ui`: the first `count` pre-built forms, titled `1`, `2`, …,
   * each loaded with the keyboard's entry of the same index. The keyboard's
   * `key_override_get` is the parameter `get`.
   */
  function RebuildUi(count: int, get: nat -> KeyOverrideEntry): (tabs: seq<Tab>)
    ensures |tabs| == SliceLength(AvailableEntries, count)
    ensures forall x :: 0 <= x < |tabs| ==> tabs[x].title == Decimal(x + 1) && tabs[x].entry == EntryLoad(get(x))
  {
    var n := SliceLength(AvailableEntries, count);
    seq(n, x requires 0 <= x < n => Tab(Decimal(x + 1), EntryLoad(get(x))))
  }

  /** Tab titles read back as their one-based positions, so no two tabs share a title. */
  lemma TabTitles(count: int, get: nat -> KeyOverrideEntry, x: nat, y: nat)
    requires x < |RebuildUi(count, get)| && y < |RebuildUi(count, get)|
    ensures ParseDecimal(RebuildUi(count, get)[x].title) == x + 1
    ensures RebuildUi(count, get)[x].title == RebuildUi(count, get)[y].title ==> x == y
  {
    if RebuildUi(count, get)[x].title == RebuildUi(count, get)[y].title {
      DecimalInjective(x + 1, y + 1);
    }
  }

  /** The device as far as `valid` looks at it. */
  datatype KeyboardInfo = KeyboardInfo(vialProtocol: int, keyOverrideCount: int)
  datatype Device = OtherDevice | VialKeyboard(keyboard: Option<KeyboardInfo>)

  /**
   * `valid`: a Vial keyboard with a loaded definition, a protocol at least
   * `dynamicProtocol` (`VIAL_PROTOCOL_DYNAMIC`, whose value is not part of
   * this model) and at least one key override.
   */
  predicate Valid(device: Device, dynamicProtocol: int) {
    && device.VialKeyboard?
    && device.keyboard.Some?
    && device.keyboard.value.vialProtocol >= dynamicProtocol
    && device.keyboard.value.keyOverrideCount > 0
  }

  /** The editor only shows itself for a device that gets at least one tab, and never more than the pre-built forms. */
  lemma ValidMeansTabs(device: Device, dynamicProtocol: int, get: nat -> KeyOverrideEntry)
    requires Valid(device, dynamicProtocol)
    ensures 1 <= |RebuildUi(device.keyboard.value.keyOverrideCount, get)| <= AvailableEntries
  {
  }

  /** `key_override_set(x, entries[x])` for each `x` in order: the slots written and nothing else. */
  function WriteSlots(stored: map<nat, KeyOverrideEntry>, entries: seq<KeyOverrideEntry>)
    : (r: map<nat, KeyOverrideEntry>)
    ensures forall x: nat :: x < |entries| ==> x in r && r[x] == entries[x]
    ensures forall x :: x in stored && x >= |entries| ==> x in r && r[x] == stored[x]
    ensures forall x: nat :: x in r <==> x in stored || x < |entries|
    decreases |entries|
  {
    if entries == [] then stored
    else
      var last := |entries| - 1;
      WriteSlots(stored, entries[..last])[last := entries[last]]
  }

  /**
   * `on_change`: every shown form is saved into the keyboard slot of the
   * same index; other slots are left alone.
   */
  function OnChange(stored: map<nat, KeyOverrideEntry>, tabs: seq<Tab>, defaultEnabled: bool)
    : (r: map<nat, KeyOverrideEntry>)
    requires forall x :: 0 <= x < |tabs| ==> WellShaped(tabs[x].entry)
    ensures forall x: nat :: x < |tabs| ==> x in r && r[x] == EntrySave(tabs[x].entry, defaultEnabled)
    ensures forall x :: x in stored && x >= |tabs| ==> x in r && r[x] == stored[x]
  {
    var saved := seq(|tabs|, x requires 0 <= x < |tabs| => EntrySave(tabs[x].entry, defaultEnabled));
    WriteSlots(stored, saved)
  }

  /**
   * Rebuilding the editor from a keyboard and immediately writing it back
   * stores each shown entry as it was, up to the mask bits the form has no
   * box for.
   */
  lemma RebuildThenSave(count: int, get: nat -> KeyOverrideEntry, stored: map<nat, KeyOverrideEntry>,
                        defaultEnabled: bool, x: nat)
    requires x < SliceLength(AvailableEntries, count)
    ensures forall y :: 0 <= y < |RebuildUi(count, get)| ==> WellShaped(RebuildUi(count, get)[y].entry)
    ensures OnChange(stored, RebuildUi(count, get), defaultEnabled)[x] == Truncated(get(x))
  {
    var tabs := RebuildUi(count, get);
    forall y | 0 <= y < |tabs|
      ensures WellShaped(tabs[y].entry)
    {
      EntryRoundTrip(get(y), defaultEnabled);
    }
    EntryRoundTrip(get(x), defaultEnabled);
  }
}

=== FILE: keycode.dfy ===
/**
 * Keycode descriptors and the `Keycode` constructor.
 *
 * In the source the constructor mutates three class attributes shared by the
 * whole process (every id ever constructed, the recorder-alias owners and the
 * masked prefixes). Here they form an explicit `Process` value that the
 * constructor takes and returns.
 */
module Keycode {
  import opened Wrappers
  import opened Text

  /** The exceptions the keycode code can raise. */
  datatype Error =
    | DuplicateRecorderAlias(alias: string)       // RuntimeError("Misconfigured: two keycodes claim the same alias …")
    | MaskedIdWithoutPlaceholder(qmkId: string)   // AssertionError of `assert qmk_id.endswith("(kc)")`
    | UnresolvedId(qmkId: string)                 // RuntimeError("unable to resolve qmk_id=…")
    | ParseFailed(text: string)                   // whatever the expression parser raises

  /** One symbolic keycode. `alias` always starts with `qmkId`. */
  datatype Descriptor = Descriptor(
    qmkId: string,
    labelText: string,
    tooltip: Option<string>,
    masked: bool,
    printable: Option<char>,
    alias: seq<string>)

  /** The arguments of one `Keycode(...)` call. */
  datatype KeycodeSpec = KeycodeSpec(
    qmkId: string,
    labelText: string,
    tooltip: Option<string>,
    masked: bool,
    printable: Option<char>,
    recorderAlias: seq<string>,
    alias: seq<string>)

  /**
   * The class attributes of `Keycode`: the ids of every descriptor ever
   * constructed (`qmk_id_to_keycode`), the owner id of each recorder alias
   * (`recorder_alias_to_keycode`), the masked prefixes (`masked_keycodes`)
   * and the active protocol (`protocol`).
   */
  datatype Process = Process(
    constructed: set<string>,
    recorderOwners: map<string, string>,
    maskedPrefixes: set<string>,
    protocol: int)

  /** The process state before any keycode is constructed. */
  const InitialProcess := Process({}, map[], {}, 0)

  /** The placeholder a masked id ends with. */
  const Placeholder := "(kc)"

  /** `qmk_id.replace("(kc)", "")`: the key of a descriptor in the id map and its masked prefix. */
  function StripPlaceholder(qmkId: string): string {
    ReplaceAll(qmkId, Placeholder, "")
  }

  /** A constructor call that cannot fail: no recorder aliases, and a masked id ends with `(kc)`. */
  predicate Simple(spec: KeycodeSpec) {
    spec.recorderAlias == [] && (spec.masked ==> EndsWith(spec.qmkId, Placeholder))
  }

  /** A plain keycode without recorder aliases, aliases or printable character. */
  function Plain(qmkId: string, labelText: string, tooltip: Option<string>): (spec: KeycodeSpec)
    ensures Simple(spec) && !spec.masked
  {
    KeycodeSpec(qmkId, labelText, tooltip, false, None, [], [])
  }

  /** The descriptor the constructor builds from its arguments. */
  function Describe(spec: KeycodeSpec): (d: Descriptor)
    ensures d.qmkId == spec.qmkId && d.masked == spec.masked
    ensures |d.alias| == 1 + |spec.alias| && d.alias[0] == d.qmkId && d.alias[1..] == spec.alias
  {
    Descriptor(spec.qmkId, spec.labelText, spec.tooltip, spec.masked, spec.printable, [spec.qmkId] + spec.alias)
  }

  predicate NoDuplicates(s: seq<string>) {
    forall i, j :: 0 <= i < j < |s| ==> s[i] != s[j]
  }

  /** Every alias in `aliases` mapped to `id`. */
  function Owned(aliases: seq<string>, id: string): map<string, string> {
    map a | a in aliases :: id
  }

  /** None of `aliases` is claimed yet, and none is listed twice. */
  predicate Claimable(owners: map<string, string>, aliases: seq<string>) {
    (forall i :: 0 <= i < |aliases| ==> aliases[i] !in owners) && NoDuplicates(aliases)
  }

  lemma OwnedCons(owners: map<string, string>, aliases: seq<string>, id: string)
    requires aliases != []
    ensures owners[aliases[0] := id] + Owned(aliases[1..], id) == owners + Owned(aliases, id)
  {
  }

  lemma ClaimableCons(owners: map<string, string>, aliases: seq<string>, id: string)
    requires aliases != [] && aliases[0] !in owners
    ensures Claimable(owners, aliases) <==> Claimable(owners[aliases[0] := id], aliases[1..])
  {
    var tail := aliases[1..];
    assert forall i :: 0 <= i < |tail| ==> tail[i] == aliases[i + 1];
    if Claimable(owners[aliases[0] := id], tail) {
      forall i, j | 0 <= i < j < |aliases|
        ensures aliases[i] != aliases[j]
      {
        assert tail[j - 1] == aliases[j];
        if i > 0 {
          assert tail[i - 1] == aliases[i];
        }
      }
      forall i | 0 <= i < |aliases|
        ensures aliases[i] !in owners
      {
        if i > 0 {
          assert tail[i - 1] == aliases[i];
        }
      }
    }
  }

  /**
   * `aliases[i]` is the first alias of the list that is already claimed,
   * by another descriptor or earlier in the same list.
   */
  predicate FirstConflict(owners: map<string, string>, aliases: seq<string>, i: int) {
    && 0 <= i < |aliases|
    && Claimable(owners, aliases[..i])
    && (aliases[i] in owners || aliases[i] in aliases[..i])
  }

  /**
   * Claims each recorder alias in order for `id`; an alias already claimed,
   * by another descriptor or earlier in the same list, is a fatal error.
   */
  function ClaimRecorderAliases(owners: map<string, string>, aliases: seq<string>, id: string)
    : (r: Result<map<string, string>, Error>)
    ensures r.Success? <==> Claimable(owners, aliases)
    ensures r.Success? ==> r.value == owners + Owned(aliases, id)
    ensures r.Failure? ==> exists i :: FirstConflict(owners, aliases, i) && r.error == DuplicateRecorderAlias(aliases[i])
    decreases |aliases|
  {
    if aliases == [] then
      assert owners + Owned(aliases, id) == owners;
      Success(owners)
    else if aliases[0] in owners then
      assert FirstConflict(owners, aliases, 0);
      Failure(DuplicateRecorderAlias(aliases[0]))
    else
      OwnedCons(owners, aliases, id);
      ClaimableCons(owners, aliases, id);
      var r := ClaimRecorderAliases(owners[aliases[0] := id], aliases[1..], id);
      assert r.Failure? ==> exists i :: FirstConflict(owners, aliases, i) && r.error == DuplicateRecorderAlias(aliases[i]) by {
        if r.Failure? {
          ConflictCons(owners, aliases, id, r.error);
        }
      }
      r
  }

  /** A first conflict in the tail, after claiming the head, is a first conflict of the whole list. */
  lemma ConflictCons(owners: map<string, string>, aliases: seq<string>, id: string, e: Error)
    requires aliases != [] && aliases[0] !in owners
    requires exists j :: FirstConflict(owners[aliases[0] := id], aliases[1..], j) && e == DuplicateRecorderAlias(aliases[1..][j])
    ensures exists i :: FirstConflict(owners, aliases, i) && e == DuplicateRecorderAlias(aliases[i])
  {
    var tail := aliases[1..];
    var j :| FirstConflict(owners[aliases[0] := id], tail, j) && e == DuplicateRecorderAlias(tail[j]);
    var i := j + 1;
    var front := aliases[..i];
    assert front[1..] == tail[..j];
    ClaimableCons(owners, front, id);
    assert aliases[i] == tail[j];
    assert tail[j] in tail[..j] ==> aliases[i] in front;
    assert FirstConflict(owners, aliases, i);
  }

  /**
   * `Keycode(...)`: records the id, claims the recorder aliases, checks that
   * a masked id ends with `(kc)` and registers its prefix. The descriptor is
   * returned together with the updated process state.
   */
  function Construct(p: Process, spec: KeycodeSpec): (r: Result<(Descriptor, Process), Error>)
    ensures r.Success? <==>
      Claimable(p.recorderOwners, spec.recorderAlias) && (spec.masked ==> EndsWith(spec.qmkId, Placeholder))
    ensures r.Success? ==> r.value.0 == Describe(spec)
    ensures r.Success? ==> r.value.1.constructed == p.constructed + {spec.qmkId}
    ensures r.Success? ==>
      r.value.1.maskedPrefixes == p.maskedPrefixes + (if spec.masked then {StripPlaceholder(spec.qmkId)} else {})
    ensures r.Success? ==> r.value.1.recorderOwners == p.recorderOwners + Owned(spec.recorderAlias, spec.qmkId)
    ensures r.Success? ==> r.value.1.protocol == p.protocol
    ensures r.Failure? && !r.error.DuplicateRecorderAlias? ==> r.error == MaskedIdWithoutPlaceholder(spec.qmkId)
  {
    var owners :- ClaimRecorderAliases(p.recorderOwners, spec.recorderAlias, spec.qmkId);
    if spec.masked && !EndsWith(spec.qmkId, Placeholder) then
      Failure(MaskedIdWithoutPlaceholder(spec.qmkId))
    else
      var prefixes := if spec.masked then p.maskedPrefixes + {StripPlaceholder(spec.qmkId)} else p.maskedPrefixes;
      Success((Describe(spec), Process(p.constructed + {spec.qmkId}, owners, prefixes, p.protocol)))
  }

  /** The ids of a list of constructor calls. */
  function IdsOf(specs: seq<KeycodeSpec>): set<string> {
    set i | 0 <= i < |specs| :: specs[i].qmkId
  }

  /** The masked prefixes a list of constructor calls registers. */
  function MaskedPrefixesOf(specs: seq<KeycodeSpec>): set<string> {
    set i | 0 <= i < |specs| && specs[i].masked :: StripPlaceholder(specs[i].qmkId)
  }

  /** The descriptors a list of constructor calls builds, in order. */
  function DescribeAll(specs: seq<KeycodeSpec>): (ds: seq<Descriptor>)
    ensures |ds| == |specs|
    ensures forall i :: 0 <= i < |specs| ==> ds[i] == Describe(specs[i])
  {
    seq(|specs|, i requires 0 <= i < |specs| => Describe(specs[i]))
  }

  lemma SplitFirst(specs: seq<KeycodeSpec>)
    requires |specs| > 0
    ensures IdsOf(specs) == {specs[0].qmkId} + IdsOf(specs[1..])
    ensures MaskedPrefixesOf(specs) ==
      (if specs[0].masked then {StripPlaceholder(specs[0].qmkId)} else {}) + MaskedPrefixesOf(specs[1..])
    ensures DescribeAll(specs) == [Describe(specs[0])] + DescribeAll(specs[1..])
  {
    forall x | x in IdsOf(specs)
      ensures x in {specs[0].qmkId} + IdsOf(specs[1..])
    {
      var i :| 0 <= i < |specs| && specs[i].qmkId == x;
      if i > 0 {
        assert specs[1..][i - 1] == specs[i];
      }
    }
    forall x | x in IdsOf(specs[1..])
      ensures x in IdsOf(specs)
    {
      var i :| 0 <= i < |specs[1..]| && specs[1..][i].qmkId == x;
      assert specs[i + 1] == specs[1..][i];
    }
    forall x | x in MaskedPrefixesOf(specs)
      ensures x in (if specs[0].masked then {StripPlaceholder(specs[0].qmkId)} else {}) + MaskedPrefixesOf(specs[1..])
    {
      var i :| 0 <= i < |specs| && specs[i].masked && StripPlaceholder(specs[i].qmkId) == x;
      if i > 0 {
        assert specs[1..][i - 1] == specs[i];
      }
    }
    forall x | x in MaskedPrefixesOf(specs[1..])
      ensures x in MaskedPrefixesOf(specs)
    {
      var i :| 0 <= i < |specs[1..]| && specs[1..][i].masked && StripPlaceholder(specs[1..][i].qmkId) == x;
      assert specs[i + 1] == specs[1..][i];
    }
  }

  /** Every call in `specs` is one that cannot fail. */
  predicate AllSimple(specs: seq<KeycodeSpec>) {
    forall i :: 0 <= i < |specs| ==> Simple(specs[i])
  }

  /**
   * When every call in a non-empty list cannot fail, the first call succeeds
   * without touching the alias owners and the rest cannot fail either.
   */
  lemma AllSimpleSplit(p: Process, specs: seq<KeycodeSpec>)
    requires |specs| > 0
    ensures AllSimple(specs) ==> AllSimple(specs[1..])
    ensures AllSimple(specs) ==>
      Construct(p, specs[0]).Success? && Construct(p, specs[0]).value.1.recorderOwners == p.recorderOwners
  {
    if AllSimple(specs) {
      forall i | 0 <= i < |specs[1..]|
        ensures Simple(specs[1..][i])
      {
        assert specs[1..][i] == specs[i + 1];
      }
      assert Owned(specs[0].recorderAlias, specs[0].qmkId) == map[];
    }
  }

  /** The recorder aliases a run of constructor calls claims, each mapped to the id of the call that claims it. */
  function OwnersOf(specs: seq<KeycodeSpec>): map<string, string> {
    if specs == [] then map[] else Owned(specs[0].recorderAlias, specs[0].qmkId) + OwnersOf(specs[1..])
  }

  /**
   * `q` is `p` after the constructor calls `specs` all succeeded: their ids
   * and masked prefixes are added, their recorder aliases are claimed, the
   * protocol is unchanged and every earlier recorder alias keeps its owner.
   */
  predicate Extends(p: Process, specs: seq<KeycodeSpec>, q: Process) {
    && q.constructed == p.constructed + IdsOf(specs)
    && q.maskedPrefixes == p.maskedPrefixes + MaskedPrefixesOf(specs)
    && q.protocol == p.protocol
    && q.recorderOwners == p.recorderOwners + OwnersOf(specs)
    && forall a :: a in p.recorderOwners ==> a in q.recorderOwners && q.recorderOwners[a] == p.recorderOwners[a]
  }

  /** Starting from the fresh process, the calls leave exactly their own ids, prefixes and aliases. */
  lemma ExtendsInitial(specs: seq<KeycodeSpec>, q: Process)
    requires Extends(InitialProcess, specs, q)
    ensures q.constructed == IdsOf(specs) && q.maskedPrefixes == MaskedPrefixesOf(specs)
    ensures q.recorderOwners == OwnersOf(specs) && q.protocol == 0
  {
    assert InitialProcess.recorderOwners + OwnersOf(specs) == OwnersOf(specs);
  }

  lemma MapUnionShift<K, V>(a: map<K, V>, x: map<K, V>, b: map<K, V>)
    ensures a + x + b == a + (x + b)
  {
  }

  lemma UnionShift<T>(a: set<T>, x: set<T>, b: set<T>)
    ensures a + x + b == a + (x + b)
  {
  }

  /** A successful first call followed by the rest extends the state by the whole list. */
  lemma ExtendsCons(p: Process, specs: seq<KeycodeSpec>, q: Process)
    requires |specs| > 0 && Construct(p, specs[0]).Success?
    requires Extends(Construct(p, specs[0]).value.1, specs[1..], q)
    ensures Extends(p, specs, q)
  {
    SplitFirst(specs);
    UnionShift(p.constructed, {specs[0].qmkId}, IdsOf(specs[1..]));
    UnionShift(p.maskedPrefixes, if specs[0].masked then {StripPlaceholder(specs[0].qmkId)} else {},
               MaskedPrefixesOf(specs[1..]));
    MapUnionShift(p.recorderOwners, Owned(specs[0].recorderAlias, specs[0].qmkId), OwnersOf(specs[1..]));
  }

  /** Every recorder alias a run of constructor calls claims, in the order the calls claim them. */
  function RecorderAliasesOf(specs: seq<KeycodeSpec>): seq<string> {
    if specs == [] then [] else specs[0].recorderAlias + RecorderAliasesOf(specs[1..])
  }

  /** Every masked id of the run ends with `(kc)`. */
  predicate PlaceholdersPresent(specs: seq<KeycodeSpec>) {
    forall i :: 0 <= i < |specs| && specs[i].masked ==> EndsWith(specs[i].qmkId, Placeholder)
  }

  /** Against no earlier owners, a list is claimable exactly when no alias repeats. */
  lemma ClaimableFresh(aliases: seq<string>)
    ensures Claimable(map[], aliases) <==> NoDuplicates(aliases)
  {
  }

  /**
   * Claiming `xs` then `ys` is possible exactly when `xs` is claimable and
   * `ys` is claimable once `xs` is owned (by any id).
   */
  lemma ClaimableAppend(owners: map<string, string>, xs: seq<string>, ys: seq<string>, id: string)
    ensures Claimable(owners, xs + ys) <==> Claimable(owners, xs) && Claimable(owners + Owned(xs, id), ys)
  {
    var zs := xs + ys;
    assert forall i :: 0 <= i < |xs| ==> zs[i] == xs[i];
    assert forall j :: 0 <= j < |ys| ==> zs[|xs| + j] == ys[j];
    if Claimable(owners, zs) {
      forall i, j | 0 <= i < j < |xs|
        ensures xs[i] != xs[j]
      {
        assert zs[i] != zs[j];
      }
      forall j | 0 <= j < |ys|
        ensures ys[j] !in owners + Owned(xs, id)
      {
        assert zs[|xs| + j] !in owners;
      }
      forall i, j | 0 <= i < j < |ys|
        ensures ys[i] != ys[j]
      {
        assert zs[|xs| + i] != zs[|xs| + j];
      }
    }
    if Claimable(owners, xs) && Claimable(owners + Owned(xs, id), ys) {
      forall i | 0 <= i < |zs|
        ensures zs[i] !in owners
      {
        if i >= |xs| {
          assert zs[i] == ys[i - |xs|];
        }
      }
      forall i, j | 0 <= i < j < |zs|
        ensures zs[i] != zs[j]
      {
        if j < |xs| {
        } else if i < |xs| {
          assert zs[j] == ys[j - |xs|];
          assert zs[j] !in Owned(xs, id);
        } else {
          assert zs[i] == ys[i - |xs|] && zs[j] == ys[j - |xs|];
        }
      }
    }
  }

  /**
   * A run succeeds exactly when its first call succeeds and the rest
   * succeeds from the state that call leaves.
   */
  lemma RunSucceedsCons(p: Process, specs: seq<KeycodeSpec>)
    requires |specs| > 0
    ensures Claimable(p.recorderOwners, RecorderAliasesOf(specs)) && PlaceholdersPresent(specs) <==>
      && Construct(p, specs[0]).Success?
      && Claimable(Construct(p, specs[0]).value.1.recorderOwners, RecorderAliasesOf(specs[1..]))
      && PlaceholdersPresent(specs[1..])
  {
    var rest := specs[1..];
    assert RecorderAliasesOf(specs) == specs[0].recorderAlias + RecorderAliasesOf(rest);
    ClaimableAppend(p.recorderOwners, specs[0].recorderAlias, RecorderAliasesOf(rest), specs[0].qmkId);
    assert forall i :: 0 <= i < |rest| ==> rest[i] == specs[i + 1];
    if PlaceholdersPresent(rest) && (specs[0].masked ==> EndsWith(specs[0].qmkId, Placeholder)) {
      forall i | 0 <= i < |specs| && specs[i].masked
        ensures EndsWith(specs[i].qmkId, Placeholder)
      {
        if i > 0 {
          assert specs[i] == rest[i - 1];
        }
      }
    }
  }

  /**
   * A sequence of constructor calls, as a module-level list literal makes
   * them. The first failing call aborts the rest, so the run succeeds
   * exactly when no recorder alias is claimed twice, across the run or
   * against the earlier owners, and every masked id ends with `(kc)`.
   */
  function ConstructAll(p: Process, specs: seq<KeycodeSpec>): (r: Result<(seq<Descriptor>, Process), Error>)
    ensures r.Success? <==> Claimable(p.recorderOwners, RecorderAliasesOf(specs)) && PlaceholdersPresent(specs)
    ensures r.Failure? ==> r.error.DuplicateRecorderAlias? || r.error.MaskedIdWithoutPlaceholder?
    ensures r.Success? ==> r.value.0 == DescribeAll(specs) && Extends(p, specs, r.value.1)
    ensures AllSimple(specs) ==> r.Success? && r.value.1.recorderOwners == p.recorderOwners
    decreases |specs|
  {
    if specs == [] then
      assert p.constructed + IdsOf(specs) == p.constructed;
      assert p.maskedPrefixes + MaskedPrefixesOf(specs) == p.maskedPrefixes;
      assert p.recorderOwners + OwnersOf(specs) == p.recorderOwners;
      Success(([], p))
    else
      AllSimpleSplit(p, specs);
      RunSucceedsCons(p, specs);
      var first :- Construct(p, specs[0]);
      var rest :- ConstructAll(first.1, specs[1..]);
      ExtendsCons(p, specs, rest.1);
      SplitFirst(specs);
      Success(([first.0] + rest.0, rest.1))
  }
}

=== FILE: protocol.dfy ===
/**
 * The two firmware keycode tables and the text-to-integer direction of the
 * codec: `resolve` (strict table lookup) and `deserialize` (identity on
 * integers, table lookup for constructed ids, expression parser otherwise).
 *
 * The table contents (`keycodes_v5`, `keycodes_v6`) are not part of this
 * model; each is an abstract map from id to raw value plus the set of raw
 * high bytes (`code & 0xFF00`) that denote masked keycodes. The expression
 * parser (`AnyKeycode.decode`) is an abstract partial function `parse`.
 */
module Protocol {
  import opened Wrappers
  import opened Keycode

  /** One firmware generation's table: `kc` and `masked` of `keycodes_vN`. */
  datatype ProtocolTable = ProtocolTable(kc: map<string, int>, masked: set<int>)

  datatype Tables = Tables(v5: ProtocolTable, v6: ProtocolTable)

  /** `protocol == 6` selects the v6 table; every other value selects v5. */
  function ActiveTable(tables: Tables, protocol: int): (t: ProtocolTable)
    ensures protocol == 6 ==> t == tables.v6
    ensures protocol != 6 ==> t == tables.v5
  {
    if protocol == 6 then tables.v6 else tables.v5
  }

  /** `Keycode.resolve`: the raw value of `qmkId` in the active table; never defaults. */
  function Resolve(tables: Tables, protocol: int, qmkId: string): (r: Result<int, Error>)
    ensures r.Success? <==> qmkId in ActiveTable(tables, protocol).kc
    ensures r.Success? ==> r.value == ActiveTable(tables, protocol).kc[qmkId]
    ensures r.Failure? ==> r.error == UnresolvedId(qmkId)
  {
    var kc := ActiveTable(tables, protocol).kc;
    if qmkId !in kc then Failure(UnresolvedId(qmkId)) else Success(kc[qmkId])
  }

  /** The argument of `deserialize`: a Python `int` or a `str`. */
  datatype KeyValue = Code(code: int) | Text(text: string)

  /**
   * `Keycode.deserialize(val, reraise)`. A resolution error for a constructed
   * id escapes whatever `reraise` says; only a parser failure is turned into
   * 0 when `reraise` is false.
   */
  function Deserialize(p: Process, tables: Tables, v: KeyValue, reraise: bool, parse: string -> Option<int>)
    : (r: Result<int, Error>)
    ensures v.Code? ==> r == Success(v.code)
    ensures v.Text? && v.text in p.constructed ==> r == Resolve(tables, p.protocol, v.text)
    ensures v.Text? && v.text !in p.constructed && parse(v.text).Some? ==> r == Success(parse(v.text).value)
    ensures v.Text? && v.text !in p.constructed && parse(v.text).None? ==>
      r == if reraise then Failure(ParseFailed(v.text)) else Success(0)
    ensures r.Failure? ==>
      && v.Text?
      && ((v.text in p.constructed && r.error == UnresolvedId(v.text)) ||
          (v.text !in p.constructed && reraise && r.error == ParseFailed(v.text)))
  {
    match v
    case Code(code) => Success(code)
    case Text(s) =>
      if s in p.constructed then Resolve(tables, p.protocol, s)
      else match parse(s)
        case Some(code) => Success(code)
        case None => if reraise then Failure(ParseFailed(s)) else Success(0)
  }

  /**
   * `reraise` matters only for text that is not a constructed id and that
   * the parser rejects: strict mode propagates the failure, lenient mode
   * returns 0. Everywhere else both modes agree.
   */
  lemma ReraiseOnlyAffectsParserFailure(p: Process, tables: Tables, v: KeyValue, parse: string -> Option<int>)
    ensures v.Text? && v.text !in p.constructed && parse(v.text).None? ==>
      Deserialize(p, tables, v, false, parse) == Success(0) &&
      Deserialize(p, tables, v, true, parse) == Failure(ParseFailed(v.text))
    ensures !(v.Text? && v.text !in p.constructed && parse(v.text).None?) ==>
      Deserialize(p, tables, v, false, parse) == Deserialize(p, tables, v, true, parse)
    ensures Deserialize(p, tables, v, false, parse).Failure? ==>
      Deserialize(p, tables, v, false, parse).error.UnresolvedId?
  {
  }
}

=== FILE: registry.dfy ===
/**
 * The keycode registry: the fifteen descriptor lists, the rebuild that
 * concatenates them and refills the id and raw-value maps
 * (`recreate_keycodes`), and the read-only lookups editors use.
 */
module Registry {
  import opened Wrappers
  import opened Text
  import opened Keycode
  import opened Protocol

  /** The hand-authored lists, constructed once when the module is imported. */
  datatype StaticLists = StaticLists(
    special: seq<Descriptor>,
    basic: seq<Descriptor>,
    shifted: seq<Descriptor>,
    iso: seq<Descriptor>,
    boot: seq<Descriptor>,
    modifiers: seq<Descriptor>,
    quantum: seq<Descriptor>,
    backlight: seq<Descriptor>,
    media: seq<Descriptor>,
    macroBase: seq<Descriptor>,
    midiBasic: seq<Descriptor>,
    midiAdvanced: seq<Descriptor>,
    hidden: seq<Descriptor>)

  /** The lists the generator replaces whenever the keyboard changes. */
  datatype DynamicLists = DynamicLists(
    layers: seq<Descriptor>,
    tapDance: seq<Descriptor>,
    macro: seq<Descriptor>,
    user: seq<Descriptor>,
    midi: seq<Descriptor>)

  const NoDynamicLists := DynamicLists([], [], [], [], [])

  /** `KEYCODES`: every list concatenated in the source's fixed order. */
  function AllKeycodes(s: StaticLists, d: DynamicLists): seq<Descriptor> {
    s.special + s.basic + s.shifted + s.iso + d.layers + s.boot + s.modifiers + s.quantum +
    s.backlight + s.media + d.tapDance + d.macro + d.user + s.hidden + d.midi
  }

  /** `KEYCODES`, `KEYCODES_MAP` (by id without `(kc)`) and `RAWCODES_MAP` (by raw value). */
  datatype Registry = Registry(
    keycodes: seq<Descriptor>,
    byId: map<string, Descriptor>,
    byRaw: map<int, Descriptor>)

  // ---------------------------------------------------------------------
  // The id map

  /** The key of a descriptor in `KEYCODES_MAP`. */
  function IdKey(d: Descriptor): string {
    StripPlaceholder(d.qmkId)
  }

  /** No entry after index `i` of `ks` shares its id key. */
  predicate NoLaterIdKey(ks: seq<Descriptor>, i: int)
    requires 0 <= i < |ks|
  {
    forall j :: i < j < |ks| ==> IdKey(ks[j]) != IdKey(ks[i])
  }

  /** `KEYCODES_MAP` filled in list order, so a later entry overwrites an earlier one. */
  function IdMap(ks: seq<Descriptor>): map<string, Descriptor> {
    if ks == [] then map[] else IdMap(ks[..|ks| - 1])[IdKey(ks[|ks| - 1]) := ks[|ks| - 1]]
  }

  /** Every entry of the id map is a descriptor of the list, stored under its own id key. */
  lemma {:induction false} IdMapSound(ks: seq<Descriptor>)
    ensures forall k :: k in IdMap(ks) ==> IdMap(ks)[k] in ks && IdKey(IdMap(ks)[k]) == k
  {
    if ks != [] {
      var front := ks[..|ks| - 1];
      IdMapSound(front);
      assert forall d :: d in front ==> d in ks;
    }
  }

  /**
   * Every descriptor's id key is in the id map, and the last descriptor
   * with a given id key is the one stored under it.
   */
  lemma {:induction false} IdMapLastWins(ks: seq<Descriptor>, i: int)
    requires 0 <= i < |ks|
    ensures IdKey(ks[i]) in IdMap(ks)
    ensures NoLaterIdKey(ks, i) ==> IdMap(ks)[IdKey(ks[i])] == ks[i]
  {
    var front := ks[..|ks| - 1];
    if i < |front| {
      assert front[i] == ks[i];
      IdMapLastWins(front, i);
      if NoLaterIdKey(ks, i) {
        assert IdKey(ks[|ks| - 1]) != IdKey(ks[i]);
        forall j | i < j < |front|
          ensures IdKey(front[j]) != IdKey(front[i])
        {
          assert front[j] == ks[j];
        }
      }
    }
  }

  // ---------------------------------------------------------------------
  // The raw-value map

  /** `Keycode.deserialize(keycode.qmk_id)`: the raw key of a descriptor. */
  function RawKey(p: Process, tables: Tables, parse: string -> Option<int>, d: Descriptor): Result<int, Error> {
    Deserialize(p, tables, Text(d.qmkId), false, parse)
  }

  /** Every descriptor of `ks` has a raw key. */
  predicate AllRawKeys(p: Process, tables: Tables, parse: string -> Option<int>, ks: seq<Descriptor>) {
    forall i :: 0 <= i < |ks| ==> RawKey(p, tables, parse, ks[i]).Success?
  }

  /** No entry after index `i` of `ks` has the raw key of `ks[i]`. */
  predicate NoLaterRawKey(p: Process, tables: Tables, parse: string -> Option<int>, ks: seq<Descriptor>, i: int)
    requires 0 <= i < |ks|
  {
    forall j :: i < j < |ks| ==> RawKey(p, tables, parse, ks[j]) != RawKey(p, tables, parse, ks[i])
  }

  /**
   * `RAWCODES_MAP` filled in list order; the first descriptor whose id does
   * not deserialize aborts the rebuild with its error.
   */
  function RawMap(p: Process, tables: Tables, parse: string -> Option<int>, ks: seq<Descriptor>)
    : Result<map<int, Descriptor>, Error>
  {
    if ks == [] then Success(map[])
    else
      var m :- RawMap(p, tables, parse, ks[..|ks| - 1]);
      var k :- RawKey(p, tables, parse, ks[|ks| - 1]);
      Success(m[k := ks[|ks| - 1]])
  }

  /**
   * The raw map is built exactly when every descriptor deserializes; a
   * failure carries the error of the first descriptor that does not.
   */
  lemma {:induction false} RawMapFailsAtFirst(p: Process, tables: Tables, parse: string -> Option<int>, ks: seq<Descriptor>)
    ensures RawMap(p, tables, parse, ks).Success? <==> AllRawKeys(p, tables, parse, ks)
    ensures RawMap(p, tables, parse, ks).Failure? ==> exists i ::
      && 0 <= i < |ks|
      && RawKey(p, tables, parse, ks[i]) == Failure(RawMap(p, tables, parse, ks).error)
      && AllRawKeys(p, tables, parse, ks[..i])
  {
    if ks != [] {
      var front := ks[..|ks| - 1];
      RawMapFailsAtFirst(p, tables, parse, front);
      assert forall i :: 0 <= i < |front| ==> front[i] == ks[i];
      if RawMap(p, tables, parse, front).Failure? {
        var i :| 0 <= i < |front| && RawKey(p, tables, parse, front[i]) == Failure(RawMap(p, tables, parse, front).error)
          && AllRawKeys(p, tables, parse, front[..i]);
        assert front[..i] == ks[..i];
      } else {
        assert front == ks[..|ks| - 1];
      }
    }
  }

  /** Each key of the raw map is the raw key of the descriptor stored under it. */
  lemma {:induction false} RawMapSound(p: Process, tables: Tables, parse: string -> Option<int>, ks: seq<Descriptor>)
    requires RawMap(p, tables, parse, ks).Success?
    ensures var m := RawMap(p, tables, parse, ks).value;
      forall k :: k in m ==> m[k] in ks && RawKey(p, tables, parse, m[k]) == Success(k)
  {
    if ks != [] {
      var front := ks[..|ks| - 1];
      RawMapSound(p, tables, parse, front);
      assert forall d :: d in front ==> d in ks;
    }
  }

  /**
   * Every descriptor's raw key is in the raw map, and the last descriptor
   * with a given raw key is the one stored under it.
   */
  lemma {:induction false} RawMapLastWins(p: Process, tables: Tables, parse: string -> Option<int>, ks: seq<Descriptor>, i: int)
    requires RawMap(p, tables, parse, ks).Success? && 0 <= i < |ks|
    ensures RawKey(p, tables, parse, ks[i]).Success?
    ensures RawKey(p, tables, parse, ks[i]).value in RawMap(p, tables, parse, ks).value
    ensures NoLaterRawKey(p, tables, parse, ks, i) ==>
      RawMap(p, tables, parse, ks).value[RawKey(p, tables, parse, ks[i]).value] == ks[i]
  {
    var front := ks[..|ks| - 1];
    if i < |front| {
      assert front[i] == ks[i];
      RawMapLastWins(p, tables, parse, front, i);
      if NoLaterRawKey(p, tables, parse, ks, i) {
        assert RawKey(p, tables, parse, ks[|ks| - 1]) != RawKey(p, tables, parse, ks[i]);
        forall j | i < j < |front|
          ensures RawKey(p, tables, parse, front[j]) != RawKey(p, tables, parse, front[i])
        {
          assert front[j] == ks[j];
        }
      }
    }
  }

  /**
   * `recreate_keycodes`: both maps are rebuilt from `ks` alone, so nothing
   * of the previous generation survives. The rebuild fails exactly when
   * some descriptor's id does not deserialize.
   */
  function Recreate(p: Process, tables: Tables, parse: string -> Option<int>, ks: seq<Descriptor>)
    : (r: Result<Registry, Error>)
    ensures r.Success? <==> AllRawKeys(p, tables, parse, ks)
    ensures r.Success? ==> r.value.keycodes == ks && r.value.byId == IdMap(ks)
    ensures r.Success? ==> RawMap(p, tables, parse, ks) == Success(r.value.byRaw)
  {
    RawMapFailsAtFirst(p, tables, parse, ks);
    var byRaw :- RawMap(p, tables, parse, ks);
    Success(Registry(ks, IdMap(ks), byRaw))
  }

  // ---------------------------------------------------------------------
  // Lookups

  /** `Keycode.find`: exact lookup, with the bare placeholder `kc` read as `KC_NO`. */
  function Find(byId: map<string, Descriptor>, qmkId: string): (r: Option<Descriptor>)
    ensures qmkId != "kc" ==> (r.Some? <==> qmkId in byId) && (r.Some? ==> r.value == byId[qmkId])
    ensures qmkId == "kc" ==> (r.Some? <==> "KC_NO" in byId) && (r.Some? ==> r.value == byId["KC_NO"])
  {
    var id := if qmkId == "kc" then "KC_NO" else qmkId;
    if id in byId then Some(byId[id]) else None
  }

  /**
   * `Keycode.is_mask`: the text before the first `(` is a registered masked
   * prefix. Equivalently, some `(` in the text has no `(` before it and a
   * registered prefix before it.
   */
  predicate IsMask(prefixes: set<string>, qmkId: string): (m: bool)
    ensures m <==> exists k :: 0 <= k < |qmkId| && qmkId[k] == '(' && '(' !in qmkId[..k] && qmkId[..k] in prefixes
  {
    if '(' in qmkId then
      var i := FirstIndex(qmkId, '(');
      qmkId[..i] in prefixes
    else
      false
  }

  /** `qmk_id[:qmk_id.find("(")]`: everything before the first `(`. */
  function OuterPart(qmkId: string): (r: string)
    requires '(' in qmkId
    ensures |r| < |qmkId| && qmkId[..|r|] == r && qmkId[|r|] == '(' && '(' !in r
  {
    qmkId[..FirstIndex(qmkId, '(')]
  }

  /**
   * `qmk_id[qmk_id.find("(") + 1:-1]`: what lies between the first `(` and
   * the last character, empty when `(` is the last character.
   */
  function InnerPart(qmkId: string): (r: string)
    requires '(' in qmkId
    ensures |OuterPart(qmkId)| + 1 < |qmkId| ==> qmkId == OuterPart(qmkId) + "(" + r + [qmkId[|qmkId| - 1]]
    ensures |OuterPart(qmkId)| + 1 == |qmkId| ==> r == ""
  {
    var i := FirstIndex(qmkId, '(');
    if i + 1 < |qmkId| then
      var r := qmkId[i + 1..|qmkId| - 1];
      assert qmkId == qmkId[..i] + "(" + r + [qmkId[|qmkId| - 1]];
      r
    else ""
  }

  /**
   * `Keycode.find_outer_keycode`: masked text is looked up by the prefix
   * before its first `(`, any other text whole; a hit is an id-map entry.
   */
  function FindOuter(byId: map<string, Descriptor>, prefixes: set<string>, qmkId: string): (r: Option<Descriptor>)
    ensures r.Some? ==> r.value in byId.Values
    ensures IsMask(prefixes, qmkId) ==> r == Find(byId, OuterPart(qmkId))
    ensures !IsMask(prefixes, qmkId) ==> r == Find(byId, qmkId)
  {
    Find(byId, if IsMask(prefixes, qmkId) then OuterPart(qmkId) else qmkId)
  }

  /**
   * `Keycode.find_inner_keycode`: masked text is looked up by what lies
   * between its first `(` and its last character, any other text whole; a
   * hit is an id-map entry.
   */
  function FindInner(byId: map<string, Descriptor>, prefixes: set<string>, qmkId: string): (r: Option<Descriptor>)
    ensures r.Some? ==> r.value in byId.Values
    ensures IsMask(prefixes, qmkId) ==> r == Find(byId, InnerPart(qmkId))
    ensures !IsMask(prefixes, qmkId) ==> r == Find(byId, qmkId)
  {
    Find(byId, if IsMask(prefixes, qmkId) then InnerPart(qmkId) else qmkId)
  }

  /** `Keycode.label`: the outer descriptor's label, or the text itself when unknown. */
  function Label(byId: map<string, Descriptor>, prefixes: set<string>, qmkId: string): (r: string)
    ensures FindOuter(byId, prefixes, qmkId).None? ==> r == qmkId
    ensures FindOuter(byId, prefixes, qmkId).Some? ==> r == FindOuter(byId, prefixes, qmkId).value.labelText
  {
    match FindOuter(byId, prefixes, qmkId)
    case None => qmkId
    case Some(d) => d.labelText
  }

  /**
   * `Keycode.tooltip`: absent when unknown, otherwise the outer descriptor's
   * id, followed by `: ` and its tooltip when that tooltip is non-empty.
   */
  function Tooltip(byId: map<string, Descriptor>, prefixes: set<string>, qmkId: string): (r: Option<string>)
    ensures r.None? <==> FindOuter(byId, prefixes, qmkId).None?
    ensures r.Some? ==> var d := FindOuter(byId, prefixes, qmkId).value;
      |d.qmkId| <= |r.value| && r.value[..|d.qmkId|] == d.qmkId &&
      (r.value == d.qmkId <==> d.tooltip.None? || d.tooltip.value == "") &&
      (d.tooltip.Some? && d.tooltip.value != "" ==> r.value == d.qmkId + ": " + d.tooltip.value)
  {
    match FindOuter(byId, prefixes, qmkId)
    case None => None
    case Some(d) =>
      if d.tooltip.Some? && d.tooltip.value != "" then
        var t := d.qmkId + ": " + d.tooltip.value;
        assert t[..|d.qmkId|] == d.qmkId;
        assert |t| > |d.qmkId|;
        Some(t)
      else Some(d.qmkId)
  }

  /** The composite text `P(I)` is split at its first `(` into `P` and `I`. */
  lemma SplitComposite(outer: string, inner: string)
    requires '(' !in outer
    ensures var s := outer + "(" + inner + ")";
      '(' in s && FirstIndex(s, '(') == |outer| && OuterPart(s) == outer && InnerPart(s) == inner
  {
    var s := outer + "(" + inner + ")";
    assert s[|outer|] == '(';
    var i := FirstIndex(s, '(');
    assert s[..i] == outer;
    assert s[i + 1..|s| - 1] == inner;
  }

  /**
   * A composite `P(I)` whose outer part is a registered masked prefix is a
   * mask; `find_outer` looks up `P` and `find_inner` looks up `I`.
   */
  lemma MaskedCompositeLookups(byId: map<string, Descriptor>, prefixes: set<string>, outer: string, inner: string)
    requires '(' !in outer && outer in prefixes
    ensures var s := outer + "(" + inner + ")";
      IsMask(prefixes, s) &&
      FindOuter(byId, prefixes, s) == Find(byId, outer) &&
      FindInner(byId, prefixes, s) == Find(byId, inner)
  {
    SplitComposite(outer, inner);
  }

  /** A composite `P(I)` whose outer part is not a registered masked prefix is not a mask. */
  lemma UnmaskedComposite(prefixes: set<string>, outer: string, inner: string)
    requires '(' !in outer && outer !in prefixes
    ensures !IsMask(prefixes, outer + "(" + inner + ")")
  {
    SplitComposite(outer, inner);
  }

  /** Text that is not a mask is looked up whole by `find_outer` and `find_inner`. */
  lemma PlainLookups(byId: map<string, Descriptor>, prefixes: set<string>, qmkId: string)
    requires !IsMask(prefixes, qmkId)
    ensures FindOuter(byId, prefixes, qmkId) == Find(byId, qmkId)
    ensures FindInner(byId, prefixes, qmkId) == Find(byId, qmkId)
  {
  }

  /**
   * `label` reads the registry: text naming a descriptor's id key, or a
   * composite whose outer part is a registered masked id key, shows the
   * label of the last descriptor registered under that key.
   */
  lemma LabelOfRegistered(ks: seq<Descriptor>, prefixes: set<string>, i: int, inner: string)
    requires 0 <= i < |ks| && NoLaterIdKey(ks, i) && IdKey(ks[i]) != "kc"
    ensures !IsMask(prefixes, IdKey(ks[i])) ==> Label(IdMap(ks), prefixes, IdKey(ks[i])) == ks[i].labelText
    ensures '(' !in IdKey(ks[i]) && IdKey(ks[i]) in prefixes ==>
      Label(IdMap(ks), prefixes, IdKey(ks[i]) + "(" + inner + ")") == ks[i].labelText
  {
    IdMapLastWins(ks, i);
    if '(' !in IdKey(ks[i]) && IdKey(ks[i]) in prefixes {
      MaskedCompositeLookups(IdMap(ks), prefixes, IdKey(ks[i]), inner);
    }
  }

  /** Text that is no descriptor's id key and not a mask is its own label. */
  lemma LabelOfUnknown(ks: seq<Descriptor>, prefixes: set<string>, qmkId: string)
    requires qmkId != "kc" && !IsMask(prefixes, qmkId)
    requires forall j :: 0 <= j < |ks| ==> IdKey(ks[j]) != qmkId
    ensures Label(IdMap(ks), prefixes, qmkId) == qmkId
  {
    IdMapSound(ks);
  }
}

=== FILE: text.dfy ===
/**
 * The string operations the keycode code relies on: substring search,
 * `str.replace`, `str.find`, and the integer formatting done by `str()`,
 * `"{:02}".format` and `hex()`, each with the reading it inverts.
 */
module Text {
  import opened Wrappers

  // ---------------------------------------------------------------------
  // Substrings

  /** `pat` occurs in `s` starting at index `i`. */
  predicate OccursAt(s: string, pat: string, i: int) {
    0 <= i && i + |pat| <= |s| && s[i..i + |pat|] == pat
  }

  /** Python's `pat in s` for a non-empty `pat`. */
  predicate Contains(s: string, pat: string) {
    exists i | 0 <= i <= |s| - |pat| :: OccursAt(s, pat, i)
  }

  /** Python's `s.endswith(suf)`. */
  predicate EndsWith(s: string, suf: string) {
    |suf| <= |s| && s[|s| - |suf|..] == suf
  }

  /**
   * Python's `s.replace(pat, rep)`: scans left to right and replaces every
   * non-overlapping occurrence of `pat`.
   */
  function ReplaceAll(s: string, pat: string, rep: string): string
    requires |pat| > 0
    decreases |s|
  {
    if |s| < |pat| then s
    else if s[..|pat|] == pat then rep + ReplaceAll(s[|pat|..], pat, rep)
    else [s[0]] + ReplaceAll(s[1..], pat, rep)
  }

  /** An occurrence inside a tail is an occurrence in the whole string. */
  lemma OccursInTail(s: string, pat: string, i: int)
    requires |s| > 0
    requires OccursAt(s[1..], pat, i)
    ensures OccursAt(s, pat, i + 1)
  {
    assert s[1..][i..i + |pat|] == s[i + 1..i + 1 + |pat|];
  }

  /** Replacing a pattern that does not occur changes nothing. */
  lemma {:induction false} ReplaceAbsent(s: string, pat: string, rep: string)
    requires |pat| > 0
    requires !Contains(s, pat)
    ensures ReplaceAll(s, pat, rep) == s
    decreases |s|
  {
    if |s| >= |pat| {
      assert !OccursAt(s, pat, 0);
      AbsentFromTail(s, pat);
      ReplaceAbsent(s[1..], pat, rep);
      assert [s[0]] + s[1..] == s;
    }
  }

  /** A string free of `pat` has a tail free of `pat`. */
  lemma AbsentFromTail(p: string, pat: string)
    requires |p| > 0 && !Contains(p, pat)
    ensures !Contains(p[1..], pat)
  {
    forall i | 0 <= i <= |p[1..]| - |pat| && OccursAt(p[1..], pat, i)
      ensures false
    {
      OccursInTail(p, pat, i);
    }
  }

  /** No occurrence of `pat` starts at the front of `p + suffix`. */
  lemma NoMatchAtFront(p: string, suffix: string, pat: string)
    requires |p| > 0 && |pat| > 0 && |suffix| >= |pat|
    requires !Contains(p, pat)
    requires forall j :: 1 <= j < |pat| ==> pat[j] != suffix[0]
    ensures (p + suffix)[..|pat|] != pat
  {
    var s := p + suffix;
    if |p| >= |pat| {
      assert !OccursAt(p, pat, 0);
      assert s[..|pat|] == p[..|pat|];
    } else {
      assert s[..|pat|][|p|] == suffix[0];
    }
  }

  /**
   * When `p` holds no occurrence of `pat` and no occurrence can straddle the
   * boundary (the first character of `suffix` appears nowhere in `pat` after
   * its first position), replacing in `p + suffix` only touches `suffix`.
   */
  lemma {:induction false} ReplaceAppend(p: string, suffix: string, pat: string, rep: string)
    requires |pat| > 0 && |suffix| >= |pat|
    requires !Contains(p, pat)
    requires forall j :: 1 <= j < |pat| ==> pat[j] != suffix[0]
    ensures ReplaceAll(p + suffix, pat, rep) == p + ReplaceAll(suffix, pat, rep)
    decreases |p|
  {
    if |p| > 0 {
      var s := p + suffix;
      NoMatchAtFront(p, suffix, pat);
      AbsentFromTail(p, pat);
      assert s[1..] == p[1..] + suffix;
      ReplaceAppend(p[1..], suffix, pat, rep);
      ReplaceKeepsFirst(s, pat, rep);
      PrependFirst(p, ReplaceAll(suffix, pat, rep));
    } else {
      assert p + suffix == suffix;
    }
  }

  lemma PrependFirst(p: string, t: string)
    requires |p| > 0
    ensures [p[0]] + (p[1..] + t) == p + t
  {
    assert [p[0]] + p[1..] == p;
  }

  /** Without a match at the front, `replace` keeps the first character and carries on with the rest. */
  lemma ReplaceKeepsFirst(s: string, pat: string, rep: string)
    requires |pat| > 0 && |s| >= |pat| && s[..|pat|] != pat
    ensures ReplaceAll(s, pat, rep) == [s[0]] + ReplaceAll(s[1..], pat, rep)
  {
  }

  /**
   * The `kc` placeholder of a masked id `P(kc)` is replaced by the inner id:
   * `P(kc).replace("kc", inner) == P(inner)` when `P` itself has no `kc`.
   */
  lemma SubstitutePlaceholder(p: string, inner: string)
    requires !Contains(p, "kc")
    ensures ReplaceAll(p + "(kc)", "kc", inner) == p + "(" + inner + ")"
  {
    ReplaceAppend(p, "(kc)", "kc", inner);
    assert "(kc)"[..2] != "kc";
    assert "(kc)"[1..] == "kc)";
    assert "kc)"[..2] == "kc";
    assert "kc)"[2..] == ")";
  }

  /** `P(kc).replace("(kc)", "") == P` when `P` itself has no `(kc)`. */
  lemma RemovePlaceholder(p: string)
    requires !Contains(p, "(kc)")
    ensures ReplaceAll(p + "(kc)", "(kc)", "") == p
  {
    ReplaceAppend(p, "(kc)", "(kc)", "");
    assert "(kc)"[..4] == "(kc)";
    assert "(kc)"[4..] == "";
  }

  /** A string lacking some character of `pat` does not contain `pat`. */
  lemma MissingCharNotContained(s: string, pat: string, j: nat)
    requires j < |pat| && pat[j] !in s
    ensures !Contains(s, pat)
  {
    forall i | 0 <= i <= |s| - |pat| && OccursAt(s, pat, i)
      ensures false
    {
    }
  }

  /** Equal strings with a common prefix and suffix have equal middles. */
  lemma CancelAround(a: string, m1: string, m2: string, b: string)
    requires a + m1 + b == a + m2 + b
    ensures m1 == m2
  {
    var s1, s2 := a + m1 + b, a + m2 + b;
    assert |m1| == |m2|;
    assert s1[|a|..|a| + |m1|] == m1;
    assert s2[|a|..|a| + |m2|] == m2;
  }

  /** Python's `s.find(c)` when `c in s`: the first index holding `c`. */
  function FirstIndex(s: string, c: char): (i: nat)
    requires c in s
    ensures i < |s| && s[i] == c
    ensures c !in s[..i]
  {
    if s[0] == c then 0
    else
      var j := FirstIndex(s[1..], c);
      assert s[..j + 1] == [s[0]] + s[1..][..j];
      1 + j
  }

  // ---------------------------------------------------------------------
  // Decimal numerals: `str(n)` and `"{:02}".format(n)` for n >= 0

  predicate IsDigit(c: char) {
    '0' <= c <= '9'
  }

  predicate AllDigits(s: string) {
    forall i :: 0 <= i < |s| ==> IsDigit(s[i])
  }

  function DigitChar(d: nat): (c: char)
    requires d < 10
    ensures IsDigit(c)
  {
    (48 + d) as char
  }

  function DigitValue(c: char): nat
    requires IsDigit(c)
  {
    c as int - 48
  }

  /** Python's `int(s)` on a string of ASCII digits. */
  function ParseDecimal(s: string): nat
    requires AllDigits(s)
  {
    if s == [] then 0
    else 10 * ParseDecimal(s[..|s| - 1]) + DigitValue(s[|s| - 1])
  }

  /** Python's `str(n)` for a natural number: digits without leading zeros. */
  function Decimal(n: nat): (s: string)
    ensures |s| > 0 && AllDigits(s)
    ensures ParseDecimal(s) == n
    ensures n > 0 ==> s[0] != '0'
  {
    if n < 10 then [DigitChar(n)]
    else
      var s := Decimal(n / 10) + [DigitChar(n % 10)];
      assert s[..|s| - 1] == Decimal(n / 10);
      s
  }

  /** Distinct numbers print differently. */
  lemma DecimalInjective(m: nat, n: nat)
    requires Decimal(m) == Decimal(n)
    ensures m == n
  {
  }

  /** Python's `"{:02}".format(n)`: at least two digits, zero padded. */
  function Pad2(n: nat): (s: string)
    ensures |s| >= 2 && AllDigits(s)
    ensures ParseDecimal(s) == n
    ensures n < 10 ==> s == ['0'] + Decimal(n)
    ensures n >= 10 ==> s == Decimal(n)
    ensures n < 100 ==> |s| == 2
  {
    if n < 10 then
      var s := ['0', DigitChar(n)];
      assert s[..1] == ['0'];
      assert s[..1][..0] == [];
      assert ParseDecimal(s[..1]) == 0;
      s
    else
      Decimal(n)
  }

  // ---------------------------------------------------------------------
  // Hexadecimal literals: `hex(code)` and `int(text, 16)`

  predicate IsHexDigit(c: char) {
    IsDigit(c) || 'a' <= c <= 'f' || 'A' <= c <= 'F'
  }

  predicate AllHexDigits(s: string) {
    forall i :: 0 <= i < |s| ==> IsHexDigit(s[i])
  }

  function HexDigitChar(d: nat): (c: char)
    requires d < 16
    ensures IsHexDigit(c)
  {
    if d < 10 then (48 + d) as char else (87 + d) as char
  }

  function HexDigitValue(c: char): nat
    requires IsHexDigit(c)
  {
    if IsDigit(c) then c as int - 48
    else if 'a' <= c <= 'f' then c as int - 87
    else c as int - 55
  }

  function ParseHexDigits(s: string): nat
    requires AllHexDigits(s)
  {
    if s == [] then 0
    else 16 * ParseHexDigits(s[..|s| - 1]) + HexDigitValue(s[|s| - 1])
  }

  /** Lower-case hexadecimal digits of `n` without leading zeros. */
  function HexDigits(n: nat): (s: string)
    ensures |s| > 0 && AllHexDigits(s)
    ensures ParseHexDigits(s) == n
  {
    if n < 16 then [HexDigitChar(n)]
    else
      var s := HexDigits(n / 16) + [HexDigitChar(n % 16)];
      assert s[..|s| - 1] == HexDigits(n / 16);
      s
  }

  /** Python's `hex(code)`: `0x1f` for 31, `-0x1f` for -31, `0x0` for 0. */
  function Hex(code: int): string {
    if code < 0 then "-0x" + HexDigits(-code) else "0x" + HexDigits(code)
  }

  /**
   * Python's `int(text, 16)` restricted to what `hex()` can print: an
   * optional minus sign, the `0x` prefix and at least one hex digit.
   */
  function ParseHexLiteral(text: string): Option<int> {
    if |text| >= 3 && text[..3] == "-0x" && |text| > 3 && AllHexDigits(text[3..]) then
      Some(-(ParseHexDigits(text[3..]) as int))
    else if |text| > 2 && text[..2] == "0x" && AllHexDigits(text[2..]) then
      Some(ParseHexDigits(text[2..]))
    else None
  }

  /** `int(hex(code), 16) == code` for every integer. */
  lemma HexRoundTrip(code: int)
    ensures ParseHexLiteral(Hex(code)) == Some(code)
  {
    var h := Hex(code);
    if code < 0 {
      assert h[..3] == "-0x";
      assert h[3..] == HexDigits(-code);
    } else {
      assert h[..2] == "0x";
      assert h[2..] == HexDigits(code);
      assert h[..3] != "-0x" by { assert h[0] == '0'; }
    }
  }

  /** A printed hex literal never looks like a decimal numeral or a plain id. */
  lemma HexStartsWithPrefix(code: int)
    ensures Hex(code)[..2] == "0x" || Hex(code)[..3] == "-0x"
  {
  }
}

=== FILE: wrappers.dfy ===
/** Failure-compatible Option and Result types used throughout the model. */
module Wrappers {

  datatype Option<+T> = None | Some(value: T) {

    predicate IsFailure() {
      None?
    }

    function PropagateFailure<U>(): Option<U>
      requires None?
    {
      None
    }

    function Extract(): T
      requires Some?
    {
      value
    }
  }

  /** Success carries a value; Failure carries the exception the source raises. */
  datatype Result<+R, +E> = Success(value: R) | Failure(error: E) {

    predicate IsFailure() {
      Failure?
    }

    function PropagateFailure<U>(): Result<U, E>
      requires Failure?
    {
      Failure(error)
    }

    function Extract(): R
      requires Success?
    {
      value
    }
  }
}
